=== FILE: README.md ===
# AlertAI emergency-call core in Dafny

AlertAI takes emergency phone calls over a websocket. It transcribes them,
has a language model extract an emergency record, geocodes the record's
location and writes it to MongoDB. Dispatchers then see the records on a
dashboard and assign response units (police, ambulance, fire truck) to them.

This project models the sequential logic inside that pipeline and proves
properties of it. The speech engine, the language model, the geocoder,
MongoDB's id generator and the websocket's lifetime are not code here: what
they produce for a call is a parameter.

Modules, one per component:

- `Wrappers` and `Values` (values.dfy). `Option`, `Result` and the HTTP error
  datatype. The JSON/BSON-like values the services pass around as Python
  dicts, with the Python built-ins applied to them: truthiness, `str()`,
  `dict.get`, substring `in`, `", ".join`, and Mongo's equality filter.
- `CallSession` (call_session.dfy). `EmergencyHandler.handle_call`,
  `process_results` and `get_analysis_result`:
  - the intake loop over inbound events that fills the audio queue;
  - the dispatcher that forwards transcript fragments;
  - the post-call steps (store, enrich, write, report, complete);
  - how the call ends: completed, faulted or stalled, and whether the
    transcription task is still running, finished or cancelled.
- `Geolocation` (geolocation.dfy). The merge step of
  `enrich_with_coordinates`; the HTTP lookup's answer is a parameter.
- `Persistence` (persistence.dfy). The document `insert_emergency_data`
  builds, and its id-or-None result.
- `EmergenciesApi` (emergencies_api.dfy). `serialize_emergency` and
  `get_emergency_by_call_id`, plus read-back lemmas that connect the write
  side to the read side.
- `Units` (units.dfy). The unit registry: count, list by type, status
  update, add.
- `Assignment` (assignment.dfy). `assign_unit` as a transition on the unit
  sequence and the emergency documents.
- `Dashboard` (dashboard.dfy). The frontend helpers:
  - the assigned-unit display and the priority badge;
  - the `prio_num` ranking and the unassigned-first table order;
  - the initial selection;
  - the message and de-duplicating merge logic of `assign_units`.

Collections are sequences in the store's natural order. `find_one` and
`update_one` act on the first matching document.

Behaviour of the code that the model keeps, although it may surprise:

- The analysis runs after every call that reaches the post-call steps,
  whatever the transcript holds, an empty one included.
- A stream that ends without a `stop` event pushes no end marker onto the
  audio queue. The handler then awaits a transcription task that never ends
  (`CallSession.HangUpStalls`), unless a media event carried a `null`
  payload: the loop enqueues that `None`, the transcriber takes it for the
  end marker, and the call runs the post-call steps after all
  (`CallSession.NullPayloadHangUpRunsPostCall`).
- The shipped speech service's `transcribe_stream` takes a different argument
  list from the one `handle_call` passes. The transcriber is therefore modelled
  by the behaviour `handle_call` relies on: it emits fragments, takes audio
  items until the first end marker, and once it stops it pushes exactly one
  end marker onto the result queue.

## Model

| member | source | states |
|---|---|---|
| CallSession.Send | backend/app/services/emergency_handler.py:62-78 | a send is always attempted and logged; it is delivered only while the caller is connected, and a closed channel never reopens |
| CallSession.SendUsesRoom | backend/app/services/emergency_handler.py:99-102 | each delivered message uses up one unit of the channel's remaining capacity; after a disconnect every send fails and delivers nothing |
| CallSession.FramesOfMarkers | backend/app/services/emergency_handler.py:34-35 | the audio items of an event sequence hold an end marker exactly when some media payload was `null`; every frame carries a non-null payload |
| CallSession.Receive | backend/app/services/emergency_handler.py:33-38 | the intake loop stops right after the first `stop` or malformed event, or at the end of the stream when there is none; the audio queue holds the media payloads read so far, in order, a `null` payload as an end marker, followed by one more end marker exactly when it stopped on `stop`; other events enqueue nothing |
| CallSession.ReceivedIsUnique | backend/app/services/emergency_handler.py:33-38 | the intake outcome is fully determined by the events |
| CallSession.ReceiveEvents | backend/app/services/emergency_handler.py:33-38 | the loop as written computes exactly the intake described by `Receive` |
| CallSession.AudioEndsOnce | backend/app/services/emergency_handler.py:34-38 | when no media payload is `null`, the audio queue holds exactly one end marker, as its last item, when the call was stopped, and none otherwise |
| CallSession.NullPayloadThenStop | backend/app/services/emergency_handler.py:34-38 | a `null` media payload followed by `stop` leaves two end markers on the audio queue |
| CallSession.TranscriberStopsOn | backend/app/services/emergency_handler.py:34-40 | the transcriber meets an end marker exactly when the call was stopped or a `null` payload was read before the loop ended |
| CallSession.ReceiveIgnoresSuffix | backend/app/services/emergency_handler.py:36-38 | events after the one that ends the loop are never consumed |
| CallSession.EventsAfterStopIgnored | backend/app/services/emergency_handler.py:36-41 | whatever follows a `stop` event does not change the call at all |
| CallSession.Dispatch | backend/app/services/emergency_handler.py:92-107 | one transcription message per fragment before the end marker, in queue order; stops at the marker; at the first failed send it stops with exactly that failed attempt logged and no further sends; disconnects exactly when the channel's capacity is smaller than the number of fragments |
| CallSession.ProcessResults | backend/app/services/emergency_handler.py:92-107 | the draining loop computes exactly what `Dispatch` describes |
| CallSession.ConnectedDispatchForwardsAll | backend/app/services/emergency_handler.py:94-99 | while the caller stays connected, every fragment is delivered once, in order, and the dispatcher ends at the marker having taken the whole queue |
| CallSession.ResultQueue | backend/app/services/emergency_handler.py:26-28 | the transcriber's queue: its fragments, then one end marker exactly when it has stopped |
| CallSession.MongoIdText | backend/app/services/emergency_handler.py:55-60 | the reported `mongo_id` is the inserted ObjectId's hex string, or `insert_failed` when no id came back |
| CallSession.ReportedInsertion | backend/app/services/emergency_handler.py:54-60 | the reported id is the generated one, or `insert_failed` exactly when the write failed and the store is unchanged |
| CallSession.AfterDraining | backend/app/services/emergency_handler.py:43-78 | a falsy analysis (None or `{}`) only sends the completion status; a dict is stored, enriched, written, reported and completed, and the registry entry is the enriched dict; a truthy non-dict is stored and then faults with nothing sent |
| CallSession.HandleCall | backend/app/services/emergency_handler.py:18-90 | unless a malformed event raised, the dispatcher drains the transcriber's fragments, with an end marker exactly when the transcriber met one, over the fresh channel; after a malformed event the transcriber never ran, so the dispatcher has received nothing, sent nothing and is still waiting; a call stalls exactly when the stream ends without `stop` and without a `null` payload; the post-call steps run exactly when no malformed event raised and the transcriber met an end marker; the transcriber is running only in a stalled call and cancelled exactly after a malformed event |
| CallSession.StoppedCallReachesPostCall | backend/app/services/emergency_handler.py:36-41 | every call ended by `stop` reaches the post-call steps |
| CallSession.GetAnalysisResult | backend/app/services/emergency_handler.py:110-111 | the stored analysis for the call id, or None when there is none |
| CallSession.FailedAnalysisOnlyReportsCompletion | backend/app/services/emergency_handler.py:44-78 | in a call reaching the post-call steps with no analysis data, the call completes, nothing is stored or written, and (if the caller stayed connected) the transcriptions are followed by exactly one completion status |
| CallSession.AnalysisIsStored | backend/app/services/emergency_handler.py:45-54 | in a call reaching the post-call steps with a non-empty analysis dict, the call completes; `get_analysis_result` returns the analysis enriched with coordinates; the store gains a record exactly when the write succeeded |
| CallSession.AnalysisIsReported | backend/app/services/emergency_handler.py:62-78 | after the transcriptions exactly two messages are sent: the analysis message, carrying the enriched dict and the generated id or `insert_failed`, then the completion status |
| CallSession.HangUpStalls | backend/app/services/emergency_handler.py:33-41 | a stream that ends without `stop` and without a `null` media payload never reaches analysis, storage or the status message; only transcriptions are sent, and the handler stays blocked with the transcriber running |
| CallSession.NullPayloadHangUpRunsPostCall | backend/app/services/emergency_handler.py:33-41 | a stream that ends without `stop` after a `null` media payload does not stall: the transcriber finishes and the post-call steps run as after `stop` |
| CallSession.StoredAnalysisMatchesSourceMerge | backend/app/services/emergency_handler.py:52-68 | unless the geocoder's first hit parsed only half-way, the registry and the analysis message hold exactly the record the merge as written produces |
| CallSession.MalformedEventFaults | backend/app/services/emergency_handler.py:82-90 | a malformed event ends the call after consuming it, with the transcriber cancelled, nothing stored, nothing sent and the dispatcher left waiting |
| CallSession.NoTranscriberOutlivesTheCall | backend/app/services/emergency_handler.py:84-90 | on every path that leaves `handle_call`, the transcription task has finished or been cancelled |
| CallSession.WrittenRecordCarriesCoordinates | backend/app/services/emergency_handler.py:52-54 | when the lookup found coordinates and the write succeeded, the stored record carries those coordinates, the analysis' priority and the call id |
| CallSession.InsertedRecordCarriesCoordinates | backend/app/services/mongodb_service.py:17-31 | the document written after a successful lookup holds both coordinates of the first hit |
| Geolocation.EnrichAsWritten | backend/app/services/geolocation_service.py:11-36 | as written: no lookup without a location; only the coordinate keys can change; a changed record implies a first hit whose latitude parsed; a first hit whose longitude does not parse leaves the record with the latitude added and nothing else changed |
| Geolocation.PartialEnrichment | backend/app/services/geolocation_service.py:28-30 | a first hit with an unparsable longitude leaves a latitude behind, although the lookup failed |
| Geolocation.Enrich | backend/app/services/geolocation_service.py:11-36 | no lookup without a location; on a parsed first hit both coordinates are set from it; otherwise the record is unchanged; no key other than the coordinates ever changes |
| Geolocation.EnrichAgreesWhenHitParses | backend/app/services/geolocation_service.py:27-34 | the code as written and the all-or-nothing merge agree on every answer except a half-parsed first hit |
| Persistence.BuildDocument | backend/app/services/mongodb_service.py:17-31 | exactly the listed keys; `call_id`, `transcript` and `time` from the arguments; status `unassigned`; each analysis field and coordinate copied or None; extra keys dropped |
| Persistence.InsertEmergency | backend/app/services/mongodb_service.py:15-40 | on success the built document plus its generated `_id` is appended and that id returned; on failure nothing is stored and None is returned |
| EmergenciesApi.Serialize | backend/app/services/emergencies_api.py:33-49 | `_id` is replaced by its string `id` (or `''`); defaults apply only to absent keys; present keys keep their values, None included; `ai_recommendation` resolves in order; every other key passes through unchanged |
| EmergenciesApi.SerializeKeepsPresent | backend/app/services/emergencies_api.py:38-46 | a key the document holds keeps its value, unless it is `_id`, `id` or `ai_recommendation` |
| EmergenciesApi.SerializeFallsBackToActions | backend/app/services/emergencies_api.py:47 | without `ai_recommendation` the recommended actions are shown |
| EmergenciesApi.FindByCallId | backend/app/services/emergencies_api.py:60 | the first document whose `call_id` matches under Mongo's equality filter |
| EmergenciesApi.GetEmergencyByCallId | backend/app/services/emergencies_api.py:58-63 | 404 "Emergency not found" exactly when no document matches; otherwise a matching document, serialized |
| EmergenciesApi.StoredEmergencyReadsBack | backend/app/services/emergencies_api.py:35-46 | a written document reads back with its generated id, the call id, transcript, time and status `unassigned` |
| EmergenciesApi.StoredAnalysisReadsBack | backend/app/services/emergencies_api.py:38-46 | every analysis field and coordinate reads back as written, None rather than a read-side default |
| EmergenciesApi.StoredRecommendationReadsBack | backend/app/services/emergencies_api.py:47 | a written document shows the analysis' recommended actions as its recommendation |
| EmergenciesApi.WrittenKeysOmitRecommendation | backend/app/services/mongodb_service.py:17-31 | the write side never stores `ai_recommendation` but always `recommended_actions` |
| EmergenciesApi.InsertedEmergencyIsFound | backend/app/services/emergencies_api.py:59-63 | once a call's record is written, looking the call up no longer fails |
| Units.UnitCountCountsMatches | backend/app/services/units_api.py:19-22 | the count equals the number of units matching type and status |
| Units.OfType | backend/app/services/units_api.py:25-28 | exactly the units of the type, each as often as the store holds it, in store order |
| Units.GetUnits | backend/app/services/units_api.py:25-28 | the scan returns exactly the units of the type |
| Units.FirstWithId | backend/app/services/units_api.py:33-36 | the position `update_one` changes: the first unit with the id |
| Units.UpdateUnitStatus | backend/app/services/units_api.py:31-39 | 404 "Unit not found" exactly when no unit has the id; otherwise only the first such unit changes, in status and timestamp |
| Units.AddUnit | backend/app/services/units_api.py:42-51 | appends an available unit with the given id, type and location |
| Units.AddUnitCounts | backend/app/services/units_api.py:42-51 | adding a unit raises the available count of its type by one and leaves every other count unchanged |
| Units.AddUnitKeepsDuplicateIds | backend/app/services/units_api.py:42-51 | an id already in use is accepted again, so two units then share it |
| Units.CountAfterStatusChange | backend/app/services/units_api.py:31-36 | changing one unit's status moves it from its old status's count to the new one |
| Assignment.FirstAvailable | backend/app/services/assignment_api.py:25-27 | the first unit of the type whose status is `available`, or none |
| Assignment.RecordAssignment | backend/app/services/assignment_api.py:41-45 | the emergency gains the unit entry with set semantics (appended once when absent, the array unchanged when present) and status `ASSIGNED`; nothing else changes; the update is refused when `assigned_unit` is not an array |
| Assignment.AssignUnitAsWritten | backend/app/services/assignment_api.py:19-54 | as written: the unit updated is the first one carrying the found unit's id |
| Assignment.DuplicateIdIsReassigned | backend/app/services/assignment_api.py:25-37 | with a duplicated id the available unit stays available and is handed out again on the next request |
| Assignment.AssignUnit | backend/app/services/assignment_api.py:19-54 | 404 with nothing changed when no unit is available; otherwise exactly the chosen unit is marked `ASSIGNED`, the emergency side answers 404 without rollback or records the assignment, and a success echoes call id, unit id and type |
| Assignment.AssignedUnitLeavesThePool | backend/app/services/assignment_api.py:25-35 | after an assignment one fewer unit of the type is available, and the next request does not pick the same unit |
| Assignment.AsWrittenAgreesOnUniqueIds | backend/app/services/assignment_api.py:29-37 | when unit ids are unique, the code as written is exactly the intended transition |
| Dashboard.EntryTexts | frontend/frontend.py:25-26 | one `id (type)` text per unit object; raises as soon as an element is not a dict |
| Dashboard.StringItems | frontend/frontend.py:27-28 | the strings of a list; raises as soon as an element is not a string |
| Dashboard.AssignedUnitDisplay | frontend/frontend.py:24-31 | strings shown as they are; a list of unit objects joined as `id (type)` texts; a list of strings joined; anything else empty; raises exactly when the list's elements do not fit its first element's kind |
| Dashboard.UnitListDisplay | frontend/frontend.py:25-26 | a list of unit objects displays as their "unit_id (unit_type)" texts joined with ", " in list order |
| Dashboard.DisplayNamesEveryUnit | frontend/frontend.py:25-26 | every unit of a list of unit objects is named in the display |
| Dashboard.StringListDisplay | frontend/frontend.py:27-28 | a list of unit names displays as those names joined with ", " |
| Dashboard.DisplayNamesEveryString | frontend/frontend.py:27-28 | every name of a list of unit names appears in the display |
| Dashboard.PriorityIndicator | frontend/frontend.py:67-73 | the HIGH and MEDIUM badges exactly for those exact strings; LOW for everything else |
| Dashboard.PrioNum | frontend/frontend.py:161-169 | the sort key is between 0 and 3 |
| Dashboard.BadgeAgreesWithRank | frontend/frontend.py:67-73 | a HIGH badge means sort key 3 and a MEDIUM badge sort key 2; an exact LOW shows the LOW badge and ranks 1 |
| Dashboard.VeryHighShowsLow | frontend/frontend.py:67-73 | 'VERY HIGH' sorts with the HIGH rows but shows the LOW badge |
| Dashboard.PrioNumOfCanonical | frontend/frontend.py:161-169 | HIGH, MEDIUM and LOW rank 3, 2 and 1 |
| Dashboard.ScoreAgreesWithPrioNum | frontend/frontend.py:224-229 | on strings the selection score equals the sort key, except that an unrecognised priority scores as LOW |
| Dashboard.InsertBySorted | frontend/frontend.py:172 | inserting into a descending sequence keeps it descending |
| Dashboard.SortBy | frontend/frontend.py:172 | the sort returns a descending permutation of its input |
| Dashboard.StripHelpers | frontend/frontend.py:173 | every row loses exactly the two helper columns |
| Dashboard.SortedEmergencies | frontend/frontend.py:157-174 | a permutation of the rows without helper columns, ordered by the unassigned-first, priority-descending rank |
| Dashboard.SortedTableGroups | frontend/frontend.py:170-172 | UNASSIGNED rows come first, and within each group priority numbers never increase |
| Dashboard.StatusMessage | frontend/frontend.py:234-240 | the status line raises exactly when the call ID is unhashable (a list or dict, looked up in the status map) or the assigned-unit display raises; otherwise it is "Assigned Unit(s): " before a non-empty display, else the call's recorded assignment status, else empty |
| Dashboard.HighestScored | frontend/frontend.py:224-233 | a row of maximal score, or none when the table is empty or some score raises |
| Dashboard.LoadInitialDetails | frontend/frontend.py:218-248 | nothing to show exactly when the table is empty; a row that is selected is one of highest score in the sorted table, shown with its status line; it raises only when some row's score raises or the status line of a highest-scored row does (its ID is unhashable or its unit display raises) |
| Dashboard.AttemptOne | frontend/frontend.py:39-55 | an accepted request's line always reports the unit type as assigned; only an accepted request can add a unit, and that unit is an object |
| Dashboard.AddedUnits | frontend/frontend.py:47-50 | one unit per request that produced one, in request order: a request's unit comes right after those of the requests before it |
| Dashboard.NotIn | frontend/frontend.py:61 | the incoming units not already recorded, in their order and with their repeats, without introducing duplicates |
| Dashboard.MergeUnits | frontend/frontend.py:58-64 | the recorded units stay first and unchanged; new ones are appended only if absent; no duplicates are introduced |
| Dashboard.AssignUnits | frontend/frontend.py:33-65 | rejected, with nothing changed, exactly when the call or the selection is missing; assigned exactly when both are present and every unit type is known; an unknown unit type raises before any map is written; otherwise the message is the success text when every line reports an assignment and the joined lines when not; the status map records it and the unit map merges the added units |
| Dashboard.RecordedUnitsDisplay | frontend/frontend.py:58-64 | every unit the dashboard records for a call is an object, so the call's display never raises and names each unit |

## Left out

- The speech engine, the audio transcoding and the transcript file are not
  modelled. The transcriber's fragments and the transcript text are
  parameters. backend/app/services/azure_speech_service.py is not part of
  this model.
- The language-model call is not modelled; the analysis result is a
  parameter.
- The geocoder's HTTP request is not modelled. Its answer, including a
  coordinate's `float()` failing, is a parameter (`Geolocation.Lookup`).
- MongoDB is a sequence of documents. Generated ObjectIds and the write's
  success are parameters. Queries other than the equality filters used here
  are not modelled.
- Timestamps (`datetime.now`, `utcnow`) are parameters. The call id's
  formatting from the clock is not modelled.
- Concurrency is not modelled. The intake loop, the transcriber and the
  dispatcher run one after another, with every transcription sent before the
  post-call messages, as `await processing_task` forces on the normal path.
  The transcriber and the dispatcher run only when the handler awaits them,
  so after a malformed event the transcriber is cancelled before taking any
  audio and the dispatcher, never awaited, has received nothing.
- The handler keeps one `transcript_file` attribute for all calls, so two
  overlapping calls race on it. This is not modelled, because the model has
  one call at a time.
- The `analysis_results` registry is never evicted. The model keeps it as a
  map that only grows.
- A transcription task that itself raises is not modelled: the transcriber is
  assumed to end by pushing its end marker.
- A send that raises something other than `WebSocketDisconnect` is not
  modelled.
- `Values.PyStr` renders lists and dicts as a fixed placeholder rather than
  Python's `repr`.
- Floats are opaque strings. Their truthiness treats only `0.0` and `-0.0` as
  false.
- Dashboard.SortedEmergencies: the two-key `sort_values` is stable, and so is
  the model's insertion sort (`InsertBy` places a row after the rows of equal
  rank), but the contract states only the rank order and the permutation, not
  that rows of equal rank keep their input order.
- Dashboard.HighestScored: the one-key `sort_values` in `load_initial_details`
  uses pandas' default, unstable sort, so which of several highest-scored rows
  comes first is not fixed. The model picks the first, and the contract
  promises only "a row of maximal score".
- CallSession.AfterDraining: enriches with the corrected all-or-nothing merge
  (`Geolocation.Enrich`), not the merge as written. The two differ only when
  the geocoder's first hit has a latitude that parses and a longitude that
  does not; there the code as written stores, writes and reports a record
  carrying the latitude alone. `CallSession.StoredAnalysisMatchesSourceMerge`
  shows that on every other answer the model holds what the code produces.
- CallSession.AnalysisIsStored: states the registry entry under the corrected
  merge; on a half-parsed first hit the code as written holds a latitude-only
  record instead.
- CallSession.AnalysisIsReported: states the analysis message under the
  corrected merge; on a half-parsed first hit the code as written sends a
  latitude-only record instead.
- CallSession.AudioEndsOnce: holds only when no media payload is `null`;
  `CallSession.NullPayloadThenStop` shows a call leaving two end markers.
- CallSession.HangUpStalls: holds only when no media payload is `null`; after
  one the call reaches the post-call steps
  (`CallSession.NullPayloadHangUpRunsPostCall`).
- The frontend's Gradio layout, the map, the polling thread, `fetch_from_api`,
  `get_unit_count` over HTTP, `update_dashboard` and `get_emergency_details`
  are left out. They are display plumbing around the helpers modelled here.
- Routing, configuration, the Twilio webhook and the unit seeding script are
  left out. They hold no logic of the core.

## Findings

| source | as written | input that shows it | evidently intended | confidence | as-written member | corrected member |
|---|---|---|---|---|---|---|
| backend/app/services/geolocation_service.py:29-30 | latitude is stored before the longitude is parsed | a location whose first geocoder hit has `lat` "40.0" and no `lon` | the lookup fails as a whole and the record stays unchanged | not executed | Geolocation.EnrichAsWritten (witness Geolocation.PartialEnrichment) | Geolocation.Enrich |
| backend/app/services/assignment_api.py:25-37 | the unit is found by type and status, then updated by `unit_id` | two police units with id P1, the first already ASSIGNED and the second available | the unit that was found is the one marked ASSIGNED | not executed | Assignment.AssignUnitAsWritten (witness Assignment.DuplicateIdIsReassigned) | Assignment.AssignUnit (with Assignment.AssignedUnitLeavesThePool) |

The call pipeline (`CallSession.AfterDraining`) uses the corrected
`Geolocation.Enrich`; "## Left out" says what that changes. `add_unit` accepts duplicate ids
(`Units.AddUnitKeepsDuplicateIds`), so the second finding is reachable
through the API alone.

=== FILE: assignment.dfy ===
/**
  Dispatching a unit to an emergency (backend/app/services/assignment_api.py):
  the first available unit of the requested type is marked `ASSIGNED` and added
  to the emergency's `assigned_unit` set. The two collections are the unit
  sequence of the registry and the emergency documents in store order.
 */
module Assignment {
  import opened Wrappers
  import opened Values
  import opened Units
  import EmergenciesApi

  /** The status written to both the unit and the emergency. */
  const Assigned := "ASSIGNED"

  datatype AssignResponse = AssignResponse(callId: string, assignedUnit: string, unitType: string)

  /** Both collections after the request, and what the endpoint answered. */
  datatype AssignOutcome = AssignOutcome(units: seq<Unit>, emergencies: seq<Doc>, response: Result<AssignResponse, HttpError>)

  /** `find_one({"type": t, "status": "available"})`: the first available unit of the type. */
  function FirstAvailable(units: seq<Unit>, t: string): (i: Option<nat>)
    ensures i.Some? ==> i.value < |units| && Matches(units[i.value], t, Available)
    ensures i.Some? ==> forall j :: 0 <= j < i.value ==> !Matches(units[j], t, Available)
    ensures i.None? ==> forall j :: 0 <= j < |units| ==> !Matches(units[j], t, Available)
  {
    if |units| == 0 then None
    else if Matches(units[0], t, Available) then Some(0)
    else match FirstAvailable(units[1..], t)
      case None => None
      case Some(i) => Some(i + 1)
  }

  /** The object stored in `assigned_unit` for one dispatched unit. */
  function UnitEntry(unitId: string, unitType: string): Value
  {
    VDict(map["unit_id" := VStr(unitId), "unit_type" := VStr(unitType)])
  }

  /** The update `{"$addToSet": {"assigned_unit": entry}, "$set": {"status": "ASSIGNED"}}`
      on one emergency document. The store refuses the whole update (None) when
      `assigned_unit` exists but is not an array. */
  function RecordAssignment(doc: Doc, entry: Value): (r: Option<Doc>)
    ensures r.None? <==> "assigned_unit" in doc && !doc["assigned_unit"].VList?
    ensures r.Some? ==> r.value.Keys == doc.Keys + {"assigned_unit", "status"}
    ensures r.Some? ==> forall k :: k in doc && k != "assigned_unit" && k != "status" ==> r.value[k] == doc[k]
    ensures r.Some? ==> r.value["status"] == VStr(Assigned)
    ensures r.Some? ==> r.value["assigned_unit"].VList? && entry in r.value["assigned_unit"].items
    ensures r.Some? && "assigned_unit" in doc ==>
              var before := doc["assigned_unit"].items;
              var after := r.value["assigned_unit"].items;
              && |after| >= |before| && after[..|before|] == before
              && (entry in before ==> after == before)
              && (entry !in before ==> after == before + [entry])
              && (NoDuplicates(before) ==> NoDuplicates(after))
    ensures r.Some? && "assigned_unit" !in doc ==> r.value["assigned_unit"] == VList([entry])
  {
    var units :=
      if "assigned_unit" !in doc then Some([entry])
      else match doc["assigned_unit"]
        case VList(xs) => Some(if entry in xs then xs else xs + [entry])
        case _ => None;
    match units
    case None => None
    case Some(xs) => Some(doc["assigned_unit" := VList(xs)]["status" := VStr(Assigned)])
  }

  /** Step 2 of `assign_unit`, on the emergency side, once the unit is marked. */
  function AssignToEmergency(units: seq<Unit>, emergencies: seq<Doc>, callId: string, unitId: string, t: string): AssignOutcome
  {
    match EmergenciesApi.FindByCallId(emergencies, callId)
    case None => AssignOutcome(units, emergencies, Err(HttpError(404, "Emergency not found")))
    case Some(k) =>
      match RecordAssignment(emergencies[k], UnitEntry(unitId, t))
      case None => AssignOutcome(units, emergencies, Err(HttpError(500, "Internal Server Error")))
      case Some(d) => AssignOutcome(units, emergencies[k := d], Ok(AssignResponse(callId, unitId, t)))
  }

  /** `assign_unit` as written: the unit is found by type and status but then
      updated by its `unit_id`, which changes the first unit carrying that id. */
  function AssignUnitAsWritten(units: seq<Unit>, emergencies: seq<Doc>, callId: string, t: string, now: Value): (o: AssignOutcome)
    ensures FirstAvailable(units, t).None? ==>
              o == AssignOutcome(units, emergencies, Err(HttpError(404, "No available unit of type " + t)))
    ensures FirstAvailable(units, t).Some? ==>
              var j := FirstWithId(units, units[FirstAvailable(units, t).value].unitId).value;
              && |o.units| == |units|
              && o.units[j] == units[j].(status := Assigned, lastUpdated := now)
              && forall m :: 0 <= m < |units| && m != j ==> o.units[m] == units[m]
  {
    match FirstAvailable(units, t)
    case None => AssignOutcome(units, emergencies, Err(HttpError(404, "No available unit of type " + t)))
    case Some(i) =>
      var unitId := units[i].unitId;
      match FirstWithId(units, unitId)
      case None =>
        // the unit just found carries this id, so `matched_count` is never 0
        AssignOutcome(units, emergencies, Err(HttpError(404, "Unit not found")))
      case Some(j) =>
        AssignToEmergency(units[j := units[j].(status := Assigned, lastUpdated := now)], emergencies, callId, unitId, t)
  }

  /** Two police units share the id "P1", the first already assigned: every
      request marks the first again and leaves the available one available, so
      the same unit is handed out on every request. */
  lemma DuplicateIdIsReassigned()
    ensures var units := [Unit("P1", "police", Assigned, "north", VNone), Unit("P1", "police", Available, "south", VNone)];
            var emergencies := [map["call_id" := VStr("C1")]];
            var first := AssignUnitAsWritten(units, emergencies, "C1", "police", VNone);
            var second := AssignUnitAsWritten(first.units, first.emergencies, "C1", "police", VNone);
            && first.response == Ok(AssignResponse("C1", "P1", "police"))
            && first.units[1] == units[1]
            && FirstAvailable(first.units, "police") == Some(1)
            && second.response == Ok(AssignResponse("C1", "P1", "police"))
  {
    var units := [Unit("P1", "police", Assigned, "north", VNone), Unit("P1", "police", Available, "south", VNone)];
    assert FirstAvailable(units, "police") == Some(1);
    assert FirstWithId(units, "P1") == Some(0);
    var emergencies := [map["call_id" := VStr("C1")]];
    assert EmergenciesApi.FindByCallId(emergencies, "C1") == Some(0);
    var first := AssignUnitAsWritten(units, emergencies, "C1", "police", VNone);
    assert first.units == units;
    assert first.emergencies[0]["call_id"] == VStr("C1");
    assert EmergenciesApi.FindByCallId(first.emergencies, "C1") == Some(0);
  }

  /** `assign_unit` with the update aimed at the unit that was found. */
  function AssignUnit(units: seq<Unit>, emergencies: seq<Doc>, callId: string, t: string, now: Value): (o: AssignOutcome)
    ensures FirstAvailable(units, t).None? ==>
              o == AssignOutcome(units, emergencies, Err(HttpError(404, "No available unit of type " + t)))
    ensures FirstAvailable(units, t).Some? ==>
              var i := FirstAvailable(units, t).value;
              && |o.units| == |units|
              && o.units[i] == units[i].(status := Assigned, lastUpdated := now)
              && (forall m :: 0 <= m < |units| && m != i ==> o.units[m] == units[m])
              && (o.response.Ok? ==> o.response.value == AssignResponse(callId, units[i].unitId, t))
    ensures FirstAvailable(units, t).Some? && EmergenciesApi.FindByCallId(emergencies, callId).None? ==>
              o.emergencies == emergencies && o.response == Err(HttpError(404, "Emergency not found"))
    ensures FirstAvailable(units, t).Some? && EmergenciesApi.FindByCallId(emergencies, callId).Some? ==>
              var k := EmergenciesApi.FindByCallId(emergencies, callId).value;
              var entry := UnitEntry(units[FirstAvailable(units, t).value].unitId, t);
              match RecordAssignment(emergencies[k], entry)
              case None => o.emergencies == emergencies && o.response.Err? && o.response.error.status == 500
              case Some(d) => o.emergencies == emergencies[k := d] && o.response.Ok?
  {
    match FirstAvailable(units, t)
    case None => AssignOutcome(units, emergencies, Err(HttpError(404, "No available unit of type " + t)))
    case Some(i) =>
      AssignToEmergency(units[i := units[i].(status := Assigned, lastUpdated := now)], emergencies, callId, units[i].unitId, t)
  }

  /** A dispatched unit is never handed out again: whatever the emergency side
      answered, one available unit of the type fewer remains, and it is not the
      one chosen. */
  lemma AssignedUnitLeavesThePool(units: seq<Unit>, emergencies: seq<Doc>, callId: string, t: string, now: Value)
    requires FirstAvailable(units, t).Some?
    ensures var o := AssignUnit(units, emergencies, callId, t, now);
            && AvailableCount(o.units, t) + 1 == AvailableCount(units, t)
            && FirstAvailable(o.units, t) != FirstAvailable(units, t)
  {
    var i := FirstAvailable(units, t).value;
    var o := AssignUnit(units, emergencies, callId, t, now);
    assert o.units == units[i := units[i].(status := Assigned, lastUpdated := now)];
    CountAfterStatusChange(units, i, Assigned, now, t, Available);
  }

  /** Unit ids are unique in the registry. */
  predicate UniqueIds(units: seq<Unit>)
  {
    forall i, j :: 0 <= i < j < |units| ==> units[i].unitId != units[j].unitId
  }

  /** With unique ids the code as written behaves as intended. */
  lemma AsWrittenAgreesOnUniqueIds(units: seq<Unit>, emergencies: seq<Doc>, callId: string, t: string, now: Value)
    requires UniqueIds(units)
    ensures AssignUnitAsWritten(units, emergencies, callId, t, now) == AssignUnit(units, emergencies, callId, t, now)
  {
    match FirstAvailable(units, t)
    case None =>
    case Some(i) =>
      assert FirstWithId(units, units[i].unitId) == Some(i);
  }
}

=== FILE: call_session.dfy ===
/**
  One emergency call as `EmergencyHandler` runs it
  (backend/app/services/emergency_handler.py), sequentialised:

  - the inbound event stream is read until a `stop` event, a malformed event
    or the end of the stream, feeding the audio queue;
  - the transcriber turns the audio into transcript fragments and, once it
    stops, pushes one end marker onto the result queue;
  - the dispatcher forwards every fragment to the caller until that marker;
  - after a `stop`, the analysis is stored, enriched with coordinates,
    written to the store and reported, and a completion status is sent.

  The transcriber, the analysis service, the geocoder, the store's id
  generator and the moment the caller's channel closes are not modelled as
  code: what they produce for this call is given as `Conditions`.
 */
module CallSession {
  import opened Wrappers
  import opened Values
  import Geolocation
  import Persistence

  /** The text of the final status message. */
  const CallCompleted := "Call handling completed"

  /** The `mongo_id` reported when the write returned no id. */
  const InsertFailed := "insert_failed"

  // ---------------------------------------------------------------- channel

  /** A message sent to the caller over the websocket. */
  datatype Outbound =
    | Transcription(text: string)
    | AnalysisMsg(data: Value, callId: string, mongoId: string)
    | StatusMsg(message: string, callId: string)

  /** The caller's websocket: every send attempt in order, the sends that got
      through, and after how many delivered messages the caller goes away
      (None: never). Once gone, every further send fails. */
  datatype Channel = Channel(attempts: seq<Outbound>, delivered: seq<Outbound>, closesAfter: Option<nat>)

  /** How many more sends get through; None when the channel never closes. */
  function Room(ch: Channel): Option<nat>
  {
    match ch.closesAfter
    case None => None
    case Some(c) => Some(if |ch.delivered| < c then c - |ch.delivered| else 0)
  }

  predicate IsOpen(ch: Channel)
  {
    Room(ch) != Some(0)
  }

  /** `send_json(m)`: the attempt is always made; it is delivered only while
      the channel is open, and a failed send raises `WebSocketDisconnect`. */
  function Send(ch: Channel, m: Outbound): (r: Channel)
    ensures r.attempts == ch.attempts + [m]
    ensures r.closesAfter == ch.closesAfter
    ensures r.delivered == if IsOpen(ch) then ch.delivered + [m] else ch.delivered
  {
    Channel(ch.attempts + [m], if IsOpen(ch) then ch.delivered + [m] else ch.delivered, ch.closesAfter)
  }

  /** Each delivered message uses up one unit of room; a closed channel stays closed. */
  lemma SendUsesRoom(ch: Channel, m: Outbound)
    ensures Room(ch).None? <==> Room(Send(ch, m)).None?
    ensures Room(ch).Some? && Room(ch).value > 0 ==> Room(Send(ch, m)) == Some(Room(ch).value - 1)
    ensures !IsOpen(ch) ==> !IsOpen(Send(ch, m)) && Send(ch, m).delivered == ch.delivered
  {
  }

  // ----------------------------------------------------------- event intake

  /** A message read by `websocket.iter_json()`. A media payload is whatever
      JSON value the message carries under `media.payload`, `null` included.
      `Malformed` stands for one that lacks the keys the loop reads (`event`,
      or `media.payload` on a media event), which raises `KeyError`. */
  datatype InboundEvent = Media(payload: Value) | Stop | OtherEvent(name: string) | Malformed

  /** An item of the audio queue: a payload, or the end marker (`None`). */
  datatype AudioItem = Frame(payload: Value) | AudioEnd

  /** Why the intake loop ended: a `stop` event, a `KeyError`, or the stream
      running out (the caller closed the socket without a `stop`). */
  datatype IntakeEnd = Stopped | BadMessage | StreamEnded

  /** The audio queue as filled by the loop, how many events it consumed, and why it ended. */
  datatype Intake = Intake(audio: seq<AudioItem>, consumed: nat, end: IntakeEnd)

  /** The events that end the intake loop. */
  predicate EndsIntake(e: InboundEvent)
  {
    e.Stop? || e.Malformed?
  }

  /** A media event whose payload is `null`: the loop enqueues `None`, which
      the transcriber cannot tell from the end marker. */
  predicate NullMedia(e: InboundEvent)
  {
    e == Media(VNone)
  }

  /** What one event contributes to the audio queue when it does not end the loop. */
  function FrameOf(e: InboundEvent): seq<AudioItem>
  {
    if !e.Media? then []
    else if e.payload == VNone then [AudioEnd]
    else [Frame(e.payload)]
  }

  /** The media payloads of `events` in arrival order, as audio items; a `null`
      payload arrives as an end marker. */
  function FramesOf(events: seq<InboundEvent>): (r: seq<AudioItem>)
  {
    if |events| == 0 then []
    else FramesOf(events[..|events| - 1]) + FrameOf(events[|events| - 1])
  }

  /** The audio items hold an end marker exactly when some media payload was
      `null`, and every frame carries a non-null payload. */
  lemma {:induction false} FramesOfMarkers(events: seq<InboundEvent>)
    ensures AudioEnd in FramesOf(events) <==> exists i :: 0 <= i < |events| && NullMedia(events[i])
    ensures forall a :: a in FramesOf(events) && a.Frame? ==> a.payload != VNone
    decreases |events|
  {
    if |events| > 0 {
      var init := events[..|events| - 1];
      FramesOfMarkers(init);
      assert forall i :: 0 <= i < |init| ==> init[i] == events[i];
    }
  }

  lemma {:induction false} FramesOfCons(e: InboundEvent, rest: seq<InboundEvent>)
    ensures FramesOf([e] + rest) == FrameOf(e) + FramesOf(rest)
    decreases |rest|
  {
    if |rest| > 0 {
      var last := |rest| - 1;
      assert ([e] + rest)[..|rest|] == [e] + rest[..last];
      FramesOfCons(e, rest[..last]);
    } else {
      assert [e] + rest == [e];
      assert FramesOf([e]) == FramesOf([]) + FrameOf(e);
    }
  }

  /** What the intake loop leaves behind: it stops right after the first
      `stop` or malformed event, or at the end of the stream when there is
      none, and the audio queue holds the media payloads read so far, in
      arrival order, followed by the end marker exactly when it stopped on `stop`. */
  predicate Received(events: seq<InboundEvent>, r: Intake)
  {
    && r.consumed <= |events|
    && (r.end.StreamEnded? <==> forall i :: 0 <= i < |events| ==> !EndsIntake(events[i]))
    && (r.end.StreamEnded? ==> r.consumed == |events|)
    && (!r.end.StreamEnded? ==>
          && 0 < r.consumed && EndsIntake(events[r.consumed - 1])
          && (forall i :: 0 <= i < r.consumed - 1 ==> !EndsIntake(events[i]))
          && (r.end.Stopped? <==> events[r.consumed - 1].Stop?))
    && r.audio == FramesOf(events[..r.consumed]) + (if r.end.Stopped? then [AudioEnd] else [])
  }

  /** The `async for` loop over the inbound events. */
  function Receive(events: seq<InboundEvent>): (r: Intake)
    ensures Received(events, r)
    decreases |events|
  {
    if |events| == 0 then Intake([], 0, StreamEnded)
    else if EndsIntake(events[0]) then
      assert events[..1] == [events[0]];
      assert FramesOf([events[0]]) == FramesOf([]) + FrameOf(events[0]);
      if events[0].Stop? then Intake([AudioEnd], 1, Stopped) else Intake([], 1, BadMessage)
    else
      var rest := Receive(events[1..]);
      ReceiveStep(events, rest);
      Intake(FrameOf(events[0]) + rest.audio, rest.consumed + 1, rest.end)
  }

  /** The intake is determined by the events: two outcomes that both fit are equal. */
  lemma ReceivedIsUnique(events: seq<InboundEvent>, a: Intake, b: Intake)
    requires Received(events, a) && Received(events, b)
    ensures a == b
  {
  }

  /** Prepending an event that does not end the loop prepends its frame. */
  lemma ReceiveStep(events: seq<InboundEvent>, rest: Intake)
    requires |events| > 0 && !EndsIntake(events[0])
    requires rest.consumed <= |events| - 1
    requires rest.audio == FramesOf(events[1..][..rest.consumed]) + (if rest.end.Stopped? then [AudioEnd] else [])
    ensures FrameOf(events[0]) + rest.audio
            == FramesOf(events[..rest.consumed + 1]) + (if rest.end.Stopped? then [AudioEnd] else [])
  {
    FramesOfCons(events[0], events[1..][..rest.consumed]);
    assert events[..rest.consumed + 1] == [events[0]] + events[1..][..rest.consumed];
  }

  /** Reading one more event adds its frame. */
  lemma FramesOfPrefix(events: seq<InboundEvent>, i: nat)
    requires i < |events|
    ensures FramesOf(events[..i + 1]) == FramesOf(events[..i]) + FrameOf(events[i])
  {
    assert events[..i + 1][..i] == events[..i];
  }

  /** The loop leaving at the first event that ends it. */
  lemma ReceivedAt(events: seq<InboundEvent>, i: nat, audio: seq<AudioItem>)
    requires i < |events| && EndsIntake(events[i])
    requires forall j :: 0 <= j < i ==> !EndsIntake(events[j])
    requires audio == FramesOf(events[..i])
    ensures var stopped := events[i].Stop?;
            Received(events, Intake(audio + (if stopped then [AudioEnd] else []), i + 1,
                                    if stopped then Stopped else BadMessage))
  {
    assert events[..i + 1][..i] == events[..i];
  }

  lemma ReceiveLeavesAt(events: seq<InboundEvent>, i: nat, audio: seq<AudioItem>)
    requires i < |events| && EndsIntake(events[i])
    requires forall j :: 0 <= j < i ==> !EndsIntake(events[j])
    requires audio == FramesOf(events[..i])
    ensures var stopped := events[i].Stop?;
            Receive(events) == Intake(audio + (if stopped then [AudioEnd] else []), i + 1,
                                      if stopped then Stopped else BadMessage)
  {
    var stopped := events[i].Stop?;
    var r := Intake(audio + (if stopped then [AudioEnd] else []), i + 1, if stopped then Stopped else BadMessage);
    ReceivedAt(events, i, audio);
    ReceivedIsUnique(events, r, Receive(events));
  }

  /** The loop running out of events. */
  lemma ReceivedAll(events: seq<InboundEvent>, audio: seq<AudioItem>)
    requires forall j :: 0 <= j < |events| ==> !EndsIntake(events[j])
    requires audio == FramesOf(events)
    ensures Receive(events) == Intake(audio, |events|, StreamEnded)
  {
    assert events[..|events|] == events;
    ReceivedIsUnique(events, Intake(audio, |events|, StreamEnded), Receive(events));
  }

  /** The intake loop as a loop: reads events until one ends it, enqueuing
      media payloads and, on `stop`, the end marker. */
  method ReceiveEvents(events: seq<InboundEvent>) returns (r: Intake)
    ensures r == Receive(events)
  {
    var audio: seq<AudioItem> := [];
    var i := 0;
    while i < |events|
      invariant i <= |events|
      invariant forall j :: 0 <= j < i ==> !EndsIntake(events[j])
      invariant audio == FramesOf(events[..i])
    {
      match events[i] {
        case Stop =>
          ReceiveLeavesAt(events, i, audio);
          return Intake(audio + [AudioEnd], i + 1, Stopped);
        case Malformed =>
          ReceiveLeavesAt(events, i, audio);
          return Intake(audio, i + 1, BadMessage);
        case _ =>
          FramesOfPrefix(events, i);
          audio := audio + FrameOf(events[i]);
      }
      i := i + 1;
    }
    assert events[..i] == events;
    ReceivedAll(events, audio);
    r := Intake(audio, i, StreamEnded);
  }

  /** Without a `null` payload, the audio queue holds exactly one end marker
      when the call was stopped, as its last item, and none otherwise. */
  lemma AudioEndsOnce(events: seq<InboundEvent>)
    requires forall i :: 0 <= i < |events| ==> !NullMedia(events[i])
    ensures var r := Receive(events);
            && multiset(r.audio)[AudioEnd] == (if r.end.Stopped? then 1 else 0)
            && (r.end.Stopped? ==> r.audio[|r.audio| - 1] == AudioEnd)
  {
    var r := Receive(events);
    var read := events[..r.consumed];
    FramesOfMarkers(read);
    assert forall i :: 0 <= i < |read| ==> read[i] == events[i];
    assert AudioEnd !in FramesOf(read);
  }

  /** A `null` payload enqueues an end marker of its own: `media(null)`
      followed by `stop` leaves two of them. */
  lemma NullPayloadThenStop()
    ensures var r := Receive([Media(VNone), Stop]);
            r.end == Stopped && r.audio == [AudioEnd, AudioEnd] && multiset(r.audio)[AudioEnd] == 2
  {
    var events := [Media(VNone), Stop];
    assert events[1..] == [Stop];
  }

  /** The transcriber takes audio items until the first end marker; it
      finishes, and pushes its own end marker onto the result queue, exactly
      when the audio queue holds one. */
  predicate TranscriberStops(intake: Intake)
  {
    AudioEnd in intake.audio
  }

  /** The transcriber stops after a `stop` event, or after a `null` payload
      read before the loop ended. */
  lemma TranscriberStopsOn(events: seq<InboundEvent>)
    ensures var r := Receive(events);
            TranscriberStops(r) <==> r.end.Stopped? || exists i :: 0 <= i < r.consumed && NullMedia(events[i])
  {
    var r := Receive(events);
    var read := events[..r.consumed];
    FramesOfMarkers(read);
    assert forall i :: 0 <= i < |read| ==> read[i] == events[i];
  }

  // ------------------------------------------------------------- dispatcher

  /** An item of the result queue: a transcript fragment, or the end marker. */
  datatype ResultItem = Fragment(text: string) | ResultEnd

  /** Why `process_results` returned, or that it is still waiting for an item. */
  datatype DispatchEnd = EndMarker | Disconnected | Waiting

  /** The channel after the dispatcher, how many queue items it took, and why it stopped. */
  datatype Dispatched = Dispatched(channel: Channel, taken: nat, end: DispatchEnd)

  /** The fragments ahead of the first end marker. */
  function Leading(queue: seq<ResultItem>): seq<string>
  {
    if |queue| == 0 then []
    else match queue[0]
      case ResultEnd => []
      case Fragment(t) => [t] + Leading(queue[1..])
  }

  /** One `transcription` message per fragment, in order. */
  function Transcriptions(texts: seq<string>): (r: seq<Outbound>)
    ensures |r| == |texts|
    ensures forall i :: 0 <= i < |texts| ==> r[i] == Transcription(texts[i])
  {
    seq(|texts|, i requires 0 <= i < |texts| => Transcription(texts[i]))
  }

  /** What the dispatcher leaves behind, given the queue and the channel it started with. */
  predicate Forwarded(queue: seq<ResultItem>, ch: Channel, d: Dispatched)
  {
    Ending(queue, ch, d) && Sending(queue, ch, d)
  }

  /** Why and where the dispatcher stopped: it gives up exactly when the channel
      has less room than there are fragments ahead of the end marker, and
      otherwise stops right after that marker if there is one. */
  predicate Ending(queue: seq<ResultItem>, ch: Channel, d: Dispatched)
  {
    && d.channel.closesAfter == ch.closesAfter
    && d.taken <= |queue|
    && (d.end.Disconnected? <==> Room(ch).Some? && Room(ch).value < |Leading(queue)|)
    && (d.end.EndMarker? <==> !d.end.Disconnected? && ResultEnd in queue)
    && (d.end.EndMarker? ==> d.taken == |Leading(queue)| + 1 && queue[d.taken - 1] == ResultEnd)
  }

  /** What the dispatcher sent: every leading fragment, or, once the caller is
      gone, the fragments that fit plus the one whose send failed. */
  predicate Sending(queue: seq<ResultItem>, ch: Channel, d: Dispatched)
  {
    && (!d.end.Disconnected? ==>
          && d.channel.attempts == ch.attempts + Transcriptions(Leading(queue))
          && d.channel.delivered == ch.delivered + Transcriptions(Leading(queue)))
    && (d.end.Disconnected? ==>
          && Room(ch).Some? && Room(ch).value < |Leading(queue)|
          && d.channel.attempts == ch.attempts + Transcriptions(Leading(queue)[..Room(ch).value + 1])
          && d.channel.delivered == ch.delivered + Transcriptions(Leading(queue)[..Room(ch).value]))
  }

  /** `process_results`: forwards fragments until the end marker, and gives up
      at the first send that fails. */
  function Dispatch(queue: seq<ResultItem>, ch: Channel): (d: Dispatched)
    ensures Forwarded(queue, ch, d)
    decreases |queue|
  {
    if |queue| == 0 then Dispatched(ch, 0, Waiting)
    else match queue[0]
      case ResultEnd => Dispatched(ch, 1, EndMarker)
      case Fragment(t) =>
        var m := Transcription(t);
        if !IsOpen(ch) then
          FirstSendFails(queue, ch);
          Dispatched(Send(ch, m), 1, Disconnected)
        else
          var d := Dispatch(queue[1..], Send(ch, m));
          ForwardedStep(queue, ch, d);
          d.(taken := d.taken + 1)
  }

  lemma FirstSendFails(queue: seq<ResultItem>, ch: Channel)
    requires |queue| > 0 && queue[0].Fragment? && !IsOpen(ch)
    ensures Forwarded(queue, ch, Dispatched(Send(ch, Transcription(queue[0].text)), 1, Disconnected))
  {
    assert Leading(queue) == [queue[0].text] + Leading(queue[1..]);
    assert Leading(queue)[..1] == [queue[0].text];
    assert Leading(queue)[..0] == [];
  }

  lemma ForwardedStep(queue: seq<ResultItem>, ch: Channel, d: Dispatched)
    requires |queue| > 0 && queue[0].Fragment? && IsOpen(ch)
    requires Forwarded(queue[1..], Send(ch, Transcription(queue[0].text)), d)
    ensures Forwarded(queue, ch, d.(taken := d.taken + 1))
  {
    EndingStep(queue, ch, d);
    SendingStep(queue, ch, d);
  }

  lemma EndingStep(queue: seq<ResultItem>, ch: Channel, d: Dispatched)
    requires |queue| > 0 && queue[0].Fragment? && IsOpen(ch)
    requires Ending(queue[1..], Send(ch, Transcription(queue[0].text)), d)
    ensures Ending(queue, ch, d.(taken := d.taken + 1))
  {
    var rest := queue[1..];
    assert Leading(queue) == [queue[0].text] + Leading(rest);
    assert queue == [queue[0]] + rest;
    assert ResultEnd in queue <==> ResultEnd in rest;
    SendUsesRoom(ch, Transcription(queue[0].text));
    if d.end.EndMarker? {
      assert queue[d.taken] == rest[d.taken - 1];
    }
  }

  lemma SendingStep(queue: seq<ResultItem>, ch: Channel, d: Dispatched)
    requires |queue| > 0 && queue[0].Fragment? && IsOpen(ch)
    requires Sending(queue[1..], Send(ch, Transcription(queue[0].text)), d)
    ensures Sending(queue, ch, d.(taken := d.taken + 1))
  {
    var t := queue[0].text;
    var rest := Leading(queue[1..]);
    assert Leading(queue) == [t] + rest;
    SendUsesRoom(ch, Transcription(t));
    if d.end.Disconnected? {
      StepDisconnected(t, rest, ch, d.channel);
    } else {
      TranscriptionsCons(t, rest);
      assert Send(ch, Transcription(t)).delivered == ch.delivered + [Transcription(t)];
    }
  }

  lemma StepDisconnected(t: string, rest: seq<string>, ch: Channel, after: Channel)
    requires IsOpen(ch) && Room(ch).Some?
    requires var n := Room(Send(ch, Transcription(t))).value;
             && n < |rest|
             && after.attempts == Send(ch, Transcription(t)).attempts + Transcriptions(rest[..n + 1])
             && after.delivered == Send(ch, Transcription(t)).delivered + Transcriptions(rest[..n])
    ensures var n := Room(ch).value;
            && after.attempts == ch.attempts + Transcriptions(([t] + rest)[..n + 1])
            && after.delivered == ch.delivered + Transcriptions(([t] + rest)[..n])
  {
    var m := Transcription(t);
    SendUsesRoom(ch, m);
    var n := Room(Send(ch, m)).value;
    assert ([t] + rest)[..n + 2] == [t] + rest[..n + 1];
    assert ([t] + rest)[..n + 1] == [t] + rest[..n];
    TranscriptionsCons(t, rest[..n + 1]);
    TranscriptionsCons(t, rest[..n]);
  }

  lemma TranscriptionsCons(t: string, texts: seq<string>)
    ensures Transcriptions([t] + texts) == [Transcription(t)] + Transcriptions(texts)
  {
  }

  /** The dispatcher as the loop `process_results` runs. */
  method ProcessResults(queue: seq<ResultItem>, ch: Channel) returns (d: Dispatched)
    ensures d == Dispatch(queue, ch)
  {
    var cur := ch;
    var i := 0;
    while i < |queue|
      invariant i <= |queue|
      invariant Dispatch(queue, ch) == Dispatch(queue[i..], cur).(taken := Dispatch(queue[i..], cur).taken + i)
    {
      assert queue[i..][1..] == queue[i + 1..];
      match queue[i] {
        case ResultEnd =>
          return Dispatched(cur, i + 1, EndMarker);
        case Fragment(t) =>
          if !IsOpen(cur) {
            return Dispatched(Send(cur, Transcription(t)), i + 1, Disconnected);
          }
          cur := Send(cur, Transcription(t));
      }
      i := i + 1;
    }
    return Dispatched(cur, i, Waiting);
  }

  /** While the caller stays connected, every fragment before the end marker is
      delivered once, in queue order, and the dispatcher stops at the marker. */
  lemma ConnectedDispatchForwardsAll(fragments: seq<string>, ch: Channel)
    requires ch.closesAfter.None?
    ensures var queue := seq(|fragments|, i requires 0 <= i < |fragments| => Fragment(fragments[i])) + [ResultEnd];
            var d := Dispatch(queue, ch);
            && d.end == EndMarker && d.taken == |queue|
            && d.channel.delivered == ch.delivered + Transcriptions(fragments)
  {
    var queue := seq(|fragments|, i requires 0 <= i < |fragments| => Fragment(fragments[i])) + [ResultEnd];
    LeadingOfFragments(fragments);
  }

  /** The result queue the transcriber fills: its fragments, then (once it has
      stopped) one end marker. */
  function ResultQueue(fragments: seq<string>, finished: bool): (q: seq<ResultItem>)
    ensures |q| == |fragments| + (if finished then 1 else 0)
    ensures ResultEnd in q <==> finished
    ensures Leading(q) == fragments
  {
    LeadingOfFragments(fragments);
    var items := seq(|fragments|, i requires 0 <= i < |fragments| => Fragment(fragments[i]));
    if finished then items + [ResultEnd] else items
  }

  lemma {:induction false} LeadingOfFragments(fragments: seq<string>)
    ensures var items := seq(|fragments|, i requires 0 <= i < |fragments| => Fragment(fragments[i]));
            && Leading(items) == fragments && Leading(items + [ResultEnd]) == fragments
            && ResultEnd !in items
    decreases |fragments|
  {
    var items := seq(|fragments|, i requires 0 <= i < |fragments| => Fragment(fragments[i]));
    if |fragments| > 0 {
      var tail := fragments[1..];
      LeadingOfFragments(tail);
      var tailItems := seq(|tail|, i requires 0 <= i < |tail| => Fragment(tail[i]));
      assert items[1..] == tailItems;
      assert (items + [ResultEnd])[1..] == tailItems + [ResultEnd];
      assert fragments == [fragments[0]] + tail;
    } else {
      assert items + [ResultEnd] == [ResultEnd];
    }
  }

  // -------------------------------------------------------------- post-call

  /** The handler's state that outlives a call: the in-memory registry
      `analysis_results` and the store's `emergencies` collection. */
  datatype Store = Store(results: map<string, Value>, collection: seq<Doc>)

  /** What the collaborators produce for this call: the transcriber's fragments,
      the analysis result (None when analysis failed), the transcript text,
      the geocoder's answer, the id the store generates (None when the write
      raises), the write's timestamp, and when the caller goes away. */
  datatype Conditions = Conditions(
    fragments: seq<string>,
    analysis: Value,
    transcript: string,
    lookup: Geolocation.Lookup,
    written: Option<string>,
    now: Value,
    closesAfter: Option<nat>)

  /** The state after the post-call steps, and whether one of them raised. */
  datatype PostCall = PostCall(channel: Channel, store: Store, faulted: bool)

  /** `mongo_id_str`: the inserted id as a string, or the failure marker. */
  function MongoIdText(inserted: Option<Value>): (s: string)
    ensures inserted.Some? && inserted.value.VObjectId? ==> s == inserted.value.hex
    ensures inserted.None? ==> s == InsertFailed
  {
    if inserted.Some? && Truthy(inserted.value) then PyStr(inserted.value) else InsertFailed
  }

  /** Lines 43-78 of `handle_call`, after both tasks have finished. The
      registry entry and the enriched record are one object, so the registry
      ends up holding the enriched analysis. A truthy analysis that is not a
      dict has no `.get`: enrichment raises and the call ends faulted. */
  function AfterDraining(ch: Channel, store: Store, callId: string, c: Conditions): (p: PostCall)
    ensures p.channel.closesAfter == ch.closesAfter
    ensures p.faulted <==> Truthy(c.analysis) && !c.analysis.VDict?
    ensures !Truthy(c.analysis) ==>
              p.store == store && p.channel.attempts == ch.attempts + [StatusMsg(CallCompleted, callId)]
    ensures Truthy(c.analysis) && !c.analysis.VDict? ==>
              && p.store == Store(store.results[callId := c.analysis], store.collection)
              && p.channel == ch
    ensures Truthy(c.analysis) && c.analysis.VDict? ==>
              var enriched := Geolocation.Enrich(c.analysis.fields, c.lookup).record;
              var ins := Persistence.InsertEmergency(store.collection, enriched, c.transcript, callId, c.now, c.written);
              && p.store == Store(store.results[callId := VDict(enriched)], ins.collection)
              && p.channel.attempts == ch.attempts + [AnalysisMsg(VDict(enriched), callId, MongoIdText(ins.insertedId)),
                                                      StatusMsg(CallCompleted, callId)]
  {
    if !Truthy(c.analysis) then
      PostCall(Send(ch, StatusMsg(CallCompleted, callId)), store, false)
    else match c.analysis
      case VDict(data) =>
        var enriched := Geolocation.Enrich(data, c.lookup).record;
        var ins := Persistence.InsertEmergency(store.collection, enriched, c.transcript, callId, c.now, c.written);
        var sent := Send(ch, AnalysisMsg(VDict(enriched), callId, MongoIdText(ins.insertedId)));
        PostCall(Send(sent, StatusMsg(CallCompleted, callId)), Store(store.results[callId := VDict(enriched)], ins.collection), false)
      case _ =>
        PostCall(ch, Store(store.results[callId := c.analysis], store.collection), true)
  }

  // ---------------------------------------------------------------- session

  /** How `handle_call` ended: it returned normally, it returned after logging
      an exception, or it is still blocked on the transcription task. */
  datatype Exit = Completed | Faulted | Stalled

  /** The transcription task when `handle_call` is left (or blocks). */
  datatype TaskState = Running | Finished | Cancelled

  datatype Session = Session(
    exit: Exit,
    intake: Intake,
    dispatch: Dispatched,
    channel: Channel,
    store: Store,
    transcription: TaskState)

  /** `handle_call` for the call `callId` over the inbound `events`, with the
      tasks run when the handler awaits them: the transcriber is awaited,
      so the post-call steps run, whenever it stops, unless a malformed
      event raised first. */
  function HandleCall(store: Store, callId: string, events: seq<InboundEvent>, c: Conditions): (s: Session)
    ensures s.intake == Receive(events)
    ensures !s.intake.end.BadMessage? ==>
              s.dispatch == Dispatch(ResultQueue(c.fragments, TranscriberStops(s.intake)), Channel([], [], c.closesAfter))
    ensures s.intake.end.BadMessage? ==> s.dispatch == Dispatched(Channel([], [], c.closesAfter), 0, Waiting)
    ensures s.exit.Stalled? <==> s.intake.end.StreamEnded? && !TranscriberStops(s.intake)
    ensures s.exit.Completed? ==> !s.intake.end.BadMessage? && TranscriberStops(s.intake)
    ensures s.transcription.Running? <==> s.exit.Stalled?
    ensures s.transcription.Cancelled? <==> s.intake.end.BadMessage?
    ensures s.intake.end.BadMessage? || !TranscriberStops(s.intake) ==>
              s.store == store && s.channel == s.dispatch.channel
    ensures !s.intake.end.BadMessage? && TranscriberStops(s.intake) ==>
              var p := AfterDraining(s.dispatch.channel, store, callId, c);
              s.store == p.store && s.channel == p.channel && (s.exit.Faulted? <==> p.faulted)
  {
    var intake := Receive(events);
    if intake.end.BadMessage? then
      // the `KeyError` skips every await, so `finally` cancels the transcriber
      // before it has taken any audio: the dispatcher receives nothing and waits
      var d := Dispatch(ResultQueue([], false), Channel([], [], c.closesAfter));
      Session(Faulted, intake, d, d.channel, store, Cancelled)
    else
      var d := Dispatch(ResultQueue(c.fragments, TranscriberStops(intake)), Channel([], [], c.closesAfter));
      if !TranscriberStops(intake) then
        // no end marker reaches the transcriber, so `await transcription_task` never returns
        Session(Stalled, intake, d, d.channel, store, Running)
      else
        var p := AfterDraining(d.channel, store, callId, c);
        Session(if p.faulted then Faulted else Completed, intake, d, p.channel, p.store, Finished)
  }

  /** `get_analysis_result`: the registry entry for the call, if any. */
  function GetAnalysisResult(results: map<string, Value>, callId: string): (r: Option<Value>)
    ensures r.Some? <==> callId in results
    ensures r.Some? ==> r.value == results[callId]
  {
    if callId in results then Some(results[callId]) else None
  }

  // ------------------------------------------------------- lifecycle lemmas

  /** The calls whose handler gets past `await processing_task`: the loop did
      not raise, and the transcriber met an end marker. */
  predicate ReachesPostCall(events: seq<InboundEvent>)
  {
    !Receive(events).end.BadMessage? && TranscriberStops(Receive(events))
  }

  /** Every call ended by `stop` reaches the post-call steps. */
  lemma StoppedCallReachesPostCall(events: seq<InboundEvent>)
    requires Receive(events).end.Stopped?
    ensures ReachesPostCall(events)
  {
    var r := Receive(events);
    assert r.audio[|r.audio| - 1] == AudioEnd;
  }

  /** A call that reaches the post-call steps but whose analysis failed sends
      every transcription and then exactly the completion status; nothing is
      stored, enriched or written. */
  lemma FailedAnalysisOnlyReportsCompletion(store: Store, callId: string, events: seq<InboundEvent>, c: Conditions)
    requires ReachesPostCall(events)
    requires !Truthy(c.analysis)
    ensures var s := HandleCall(store, callId, events, c);
            && s.exit == Completed
            && s.store == store
            && GetAnalysisResult(s.store.results, callId) == GetAnalysisResult(store.results, callId)
            && (s.dispatch.end.Disconnected? ||
                s.channel.attempts == Transcriptions(c.fragments) + [StatusMsg(CallCompleted, callId)])
  {
    var d := Dispatch(ResultQueue(c.fragments, true), Channel([], [], c.closesAfter));
    DrainedQueueSent(c.fragments, c.closesAfter);
    var p := AfterDraining(d.channel, store, callId, c);
    assert p.channel.attempts == d.channel.attempts + [StatusMsg(CallCompleted, callId)];
    assert HandleCall(store, callId, events, c).channel == p.channel;
  }

  /** Unless the caller went away, a drained queue was sent in full over the fresh channel. */
  lemma DrainedQueueSent(fragments: seq<string>, closesAfter: Option<nat>)
    ensures var d := Dispatch(ResultQueue(fragments, true), Channel([], [], closesAfter));
            !d.end.Disconnected? ==> d.channel.attempts == Transcriptions(fragments)
  {
    var d := Dispatch(ResultQueue(fragments, true), Channel([], [], closesAfter));
    assert [] + Transcriptions(fragments) == Transcriptions(fragments);
  }

  /** A call reaching the post-call steps whose analysis is a non-empty dict completes, and the
      registry then holds the analysis enriched with coordinates (the stored
      dict is the one enrichment updates); the store gains a record exactly
      when the write went through. */
  lemma AnalysisIsStored(store: Store, callId: string, events: seq<InboundEvent>, c: Conditions)
    requires ReachesPostCall(events)
    requires c.analysis.VDict? && c.analysis.fields != map[]
    ensures HandleCall(store, callId, events, c).exit == Completed
    ensures GetAnalysisResult(HandleCall(store, callId, events, c).store.results, callId)
            == Some(VDict(Geolocation.Enrich(c.analysis.fields, c.lookup).record))
    ensures c.written.None? <==> HandleCall(store, callId, events, c).store.collection == store.collection
  {
    assert Truthy(c.analysis);
    var s := HandleCall(store, callId, events, c);
    var enriched := Geolocation.Enrich(c.analysis.fields, c.lookup).record;
    var p := AfterDraining(s.dispatch.channel, store, callId, c);
    assert s.store == p.store;
    var ins := Persistence.InsertEmergency(store.collection, enriched, c.transcript, callId, c.now, c.written);
    assert p.store == Store(store.results[callId := VDict(enriched)], ins.collection);
    ReportedInsertion(store.collection, enriched, c.transcript, callId, c.now, c.written);
  }

  /** After the transcriptions, a call reaching the post-call steps with a non-empty dict analysis
      sends exactly two messages: the analysis message, carrying the same
      enriched dict the registry holds and the generated id (or
      `insert_failed`), and then the completion status. */
  lemma AnalysisIsReported(store: Store, callId: string, events: seq<InboundEvent>, c: Conditions)
    requires ReachesPostCall(events)
    requires c.analysis.VDict? && c.analysis.fields != map[]
    ensures var s := HandleCall(store, callId, events, c);
            s.channel.attempts == s.dispatch.channel.attempts
              + [AnalysisMsg(VDict(Geolocation.Enrich(c.analysis.fields, c.lookup).record), callId,
                             if c.written.Some? then c.written.value else InsertFailed),
                 StatusMsg(CallCompleted, callId)]
  {
    assert Truthy(c.analysis);
    var enriched := Geolocation.Enrich(c.analysis.fields, c.lookup).record;
    ReportedInsertion(store.collection, enriched, c.transcript, callId, c.now, c.written);
  }

  /** Unless the geocoder's first hit parsed only half-way, the registry and
      the analysis message hold exactly what the merge as written in
      `enrich_with_coordinates` produces. */
  lemma StoredAnalysisMatchesSourceMerge(store: Store, callId: string, events: seq<InboundEvent>, c: Conditions)
    requires ReachesPostCall(events)
    requires c.analysis.VDict? && c.analysis.fields != map[]
    requires Geolocation.NotHalfParsed(c.lookup)
    ensures var s := HandleCall(store, callId, events, c);
            var merged := VDict(Geolocation.EnrichAsWritten(c.analysis.fields, c.lookup).record);
            && GetAnalysisResult(s.store.results, callId) == Some(merged)
            && |s.channel.attempts| >= 2
            && s.channel.attempts[|s.channel.attempts| - 2].AnalysisMsg?
            && s.channel.attempts[|s.channel.attempts| - 2].data == merged
  {
    Geolocation.EnrichAgreesWhenHitParses(c.analysis.fields, c.lookup);
    AnalysisIsStored(store, callId, events, c);
    AnalysisIsReported(store, callId, events, c);
  }

  /** The id reported for a write is the generated one, or `insert_failed`
      exactly when nothing was written. */
  lemma ReportedInsertion(collection: seq<Doc>, data: Doc, transcript: string, callId: string,
                          now: Value, written: Option<string>)
    ensures var ins := Persistence.InsertEmergency(collection, data, transcript, callId, now, written);
            && MongoIdText(ins.insertedId) == (if written.Some? then written.value else InsertFailed)
            && (written.None? <==> ins.collection == collection)
  {
    var ins := Persistence.InsertEmergency(collection, data, transcript, callId, now, written);
    assert written.Some? ==> |ins.collection| == |collection| + 1;
  }

  /** A stream that ends without `stop` or a `null` payload (the caller hung
      up) never reaches the post-call steps: nothing is analysed, stored or
      written, no status is sent, and the handler stays blocked with the
      transcriber running. */
  lemma HangUpStalls(store: Store, callId: string, events: seq<InboundEvent>, c: Conditions)
    requires forall i :: 0 <= i < |events| ==> !EndsIntake(events[i]) && !NullMedia(events[i])
    ensures var s := HandleCall(store, callId, events, c);
            && s.exit == Stalled && s.transcription == Running
            && s.store == store
            && s.dispatch.end != EndMarker
            && forall m :: m in s.channel.attempts ==> m.Transcription?
  {
    TranscriberStopsOn(events);
    OnlyTranscriptionsSent(ResultQueue(c.fragments, false), Channel([], [], c.closesAfter));
  }

  /** A hang-up after a `null` payload does not stall: the transcriber took
      that payload for the end marker, so the handler runs the post-call
      steps as after `stop`. */
  lemma NullPayloadHangUpRunsPostCall(store: Store, callId: string, events: seq<InboundEvent>, c: Conditions, k: nat)
    requires forall i :: 0 <= i < |events| ==> !EndsIntake(events[i])
    requires k < |events| && NullMedia(events[k])
    ensures var s := HandleCall(store, callId, events, c);
            var p := AfterDraining(s.dispatch.channel, store, callId, c);
            && s.intake.end == StreamEnded && s.exit != Stalled && s.transcription == Finished
            && s.store == p.store && s.channel == p.channel
  {
    TranscriberStopsOn(events);
  }

  /** A malformed event ends the call before any post-call step, with the
      transcriber cancelled, no event after it consumed and nothing sent:
      the dispatcher is left waiting. */
  lemma MalformedEventFaults(store: Store, callId: string, events: seq<InboundEvent>, c: Conditions, i: nat)
    requires i < |events| && events[i].Malformed?
    requires forall j :: 0 <= j < i ==> !EndsIntake(events[j])
    ensures var s := HandleCall(store, callId, events, c);
            && s.exit == Faulted && s.transcription == Cancelled
            && s.intake.consumed == i + 1
            && s.store == store
            && s.dispatch.end == Waiting
            && s.channel.attempts == []
            && StatusMsg(CallCompleted, callId) !in s.channel.attempts
  {
    var intake := Receive(events);
    assert intake.consumed == i + 1;
  }

  /** The dispatcher sends nothing but transcriptions. */
  lemma OnlyTranscriptionsSent(queue: seq<ResultItem>, ch: Channel)
    ensures forall m :: m in Dispatch(queue, ch).channel.attempts ==> m in ch.attempts || m.Transcription?
  {
    var d := Dispatch(queue, ch);
    var sent := if d.end.Disconnected? then Leading(queue)[..Room(ch).value + 1] else Leading(queue);
    assert d.channel.attempts == ch.attempts + Transcriptions(sent);
  }

  /** Leaving `handle_call` never leaves the transcriber running: it has either
      finished or been cancelled (and the cancellation was swallowed). */
  lemma NoTranscriberOutlivesTheCall(store: Store, callId: string, events: seq<InboundEvent>, c: Conditions)
    ensures var s := HandleCall(store, callId, events, c);
            !s.exit.Stalled? ==> s.transcription in {Finished, Cancelled}
  {
  }

  /** Only events up to the first `stop` are read: what follows it never
      changes the call. */
  lemma EventsAfterStopIgnored(store: Store, callId: string, events: seq<InboundEvent>, later: seq<InboundEvent>, c: Conditions)
    requires Receive(events).end.Stopped?
    ensures HandleCall(store, callId, events + later, c) == HandleCall(store, callId, events, c)
  {
    var r := Receive(events);
    ReceiveIgnoresSuffix(events, later);
  }

  /** Events after the one that ends the loop are never read. */
  lemma ReceiveIgnoresSuffix(events: seq<InboundEvent>, later: seq<InboundEvent>)
    requires !Receive(events).end.StreamEnded?
    ensures Receive(events + later) == Receive(events)
  {
    var r := Receive(events);
    ReceivedExtends(events, later, r);
    ReceivedIsUnique(events + later, r, Receive(events + later));
  }

  lemma ReceivedExtends(events: seq<InboundEvent>, later: seq<InboundEvent>, r: Intake)
    requires Received(events, r) && !r.end.StreamEnded?
    ensures Received(events + later, r)
  {
    var all := events + later;
    var k := r.consumed - 1;
    assert all[..r.consumed] == events[..r.consumed];
    assert all[k] == events[k];
    assert forall i :: 0 <= i < k ==> all[i] == events[i];
  }

  /** When the call was written, the dashboard's record for it carries the
      coordinates the geocoder found for the analysis' location, and the
      priority the analysis gave. */
  lemma WrittenRecordCarriesCoordinates(store: Store, callId: string, events: seq<InboundEvent>, c: Conditions)
    requires ReachesPostCall(events)
    requires c.analysis.VDict? && Geolocation.HasLocation(c.analysis.fields)
    requires Geolocation.FirstCoordinates(c.lookup).Some? && c.written.Some?
    ensures |HandleCall(store, callId, events, c).store.collection| == |store.collection| + 1
    ensures var doc := HandleCall(store, callId, events, c).store.collection[|store.collection|];
            var coords := Geolocation.FirstCoordinates(c.lookup).value;
            && "latitude" in doc && doc["latitude"] == coords.0
            && "longitude" in doc && doc["longitude"] == coords.1
            && "priority" in doc && doc["priority"] == Get(c.analysis.fields, "priority", VNone)
            && "call_id" in doc && doc["call_id"] == VStr(callId)
  {
    var s := HandleCall(store, callId, events, c);
    assert Truthy(c.analysis);
    var enriched := Geolocation.Enrich(c.analysis.fields, c.lookup).record;
    var ins := Persistence.InsertEmergency(store.collection, enriched, c.transcript, callId, c.now, c.written);
    assert s.store.collection == ins.collection;
    InsertedRecordCarriesCoordinates(store.collection, c.analysis.fields, c.lookup, c.transcript, callId, c.now, c.written.value);
  }

  /** The write after a successful lookup stores both coordinates of the first
      hit, the analysis' priority and the call's id. */
  lemma InsertedRecordCarriesCoordinates(collection: seq<Doc>, data: Doc, lookup: Geolocation.Lookup,
                                         transcript: string, callId: string, now: Value, hex: string)
    requires Geolocation.HasLocation(data) && Geolocation.FirstCoordinates(lookup).Some?
    ensures var ins := Persistence.InsertEmergency(collection, Geolocation.Enrich(data, lookup).record,
                                                   transcript, callId, now, Some(hex));
            && |ins.collection| == |collection| + 1
            && var doc := ins.collection[|collection|];
               var coords := Geolocation.FirstCoordinates(lookup).value;
               && "latitude" in doc && doc["latitude"] == coords.0
               && "longitude" in doc && doc["longitude"] == coords.1
               && "priority" in doc && doc["priority"] == Get(data, "priority", VNone)
               && "call_id" in doc && doc["call_id"] == VStr(callId)
  {
    var enriched := Geolocation.Enrich(data, lookup).record;
    var ins := Persistence.InsertEmergency(collection, enriched, transcript, callId, now, Some(hex));
    var doc := ins.collection[|collection|];
    var built := Persistence.BuildDocument(enriched, transcript, callId, now);
    assert doc - {"_id"} == built;
    assert "latitude" in built && "longitude" in built && "priority" in built && "call_id" in built;
    assert doc["latitude"] == built["latitude"];
    assert doc["longitude"] == built["longitude"];
    assert doc["priority"] == built["priority"];
    assert doc["call_id"] == built["call_id"];
    assert Get(enriched, "priority", VNone) == Get(data, "priority", VNone);
  }
}

=== FILE: dashboard.dfy ===
/**
  The dispatcher dashboard's pure helpers (frontend/frontend.py): how assigned
  units and priorities are displayed, how an assignment request updates the
  dashboard's two per-call maps, how the emergency table is ordered and which
  emergency is shown first. HTTP answers from the backend are parameters.
 */
module Dashboard {
  import opened Wrappers
  import opened Values

  // ---------------------------------------------------------------------------
  // Assigned-unit display
  // ---------------------------------------------------------------------------

  /** `f"{u.get('unit_id', '')} ({u.get('unit_type', '')})"`; None when `u` has no `.get`. */
  function EntryText(u: Value): Option<string>
  {
    match u
    case VDict(m) => Some(PyStr(Get(m, "unit_id", VStr(""))) + " (" + PyStr(Get(m, "unit_type", VStr(""))) + ")")
    case _ => None
  }

  /** The texts of a list of unit objects; None as soon as one is not a dict. */
  function EntryTexts(xs: seq<Value>): (r: Option<seq<string>>)
    ensures r.Some? <==> forall i :: 0 <= i < |xs| ==> xs[i].VDict?
    ensures r.Some? ==> |r.value| == |xs| && forall i :: 0 <= i < |xs| ==> Some(r.value[i]) == EntryText(xs[i])
  {
    if |xs| == 0 then Some([])
    else match (EntryText(xs[0]), EntryTexts(xs[1..]))
      case (Some(t), Some(ts)) => Some([t] + ts)
      case _ => None
  }

  /** The strings of a list; None as soon as one is not a string (`join` raises). */
  function StringItems(xs: seq<Value>): (r: Option<seq<string>>)
    ensures r.Some? <==> forall i :: 0 <= i < |xs| ==> xs[i].VStr?
    ensures r.Some? ==> |r.value| == |xs| && forall i :: 0 <= i < |xs| ==> xs[i] == VStr(r.value[i])
  {
    if |xs| == 0 then Some([])
    else match (xs[0], StringItems(xs[1..]))
      case (VStr(s), Some(ss)) => Some([s] + ss)
      case _ => None
  }

  /** `assigned_unit_display`: None when the Python function raises. */
  function AssignedUnitDisplay(cell: Value): (r: Option<string>)
    ensures cell.VStr? ==> r == Some(cell.s)
    ensures !cell.VStr? && !cell.VList? ==> r == Some("")
    ensures cell.VList? && |cell.items| > 0 && cell.items[0].VDict? ==>
              (r.Some? <==> forall i :: 0 <= i < |cell.items| ==> cell.items[i].VDict?)
    ensures cell.VList? && (|cell.items| == 0 || !cell.items[0].VDict?) ==>
              (r.Some? <==> forall i :: 0 <= i < |cell.items| ==> cell.items[i].VStr?)
    ensures cell == VList([]) ==> r == Some("")
  {
    match cell
    case VList(xs) =>
      var parts := if |xs| > 0 && xs[0].VDict? then EntryTexts(xs) else StringItems(xs);
      if parts.Some? then Some(Join(", ", parts.value)) else None
    case VStr(s) => Some(s)
    case _ => Some("")
  }

  /** A later part of a string contains whatever that part contains. */
  lemma {:induction false} ContainsInSuffix(pre: string, s: string, sub: string)
    requires Contains(s, sub)
    ensures Contains(pre + s, sub)
    decreases |pre|
  {
    if |pre| > 0 {
      var t := pre + s;
      ContainsInSuffix(pre[1..], s, sub);
      assert t[1..] == pre[1..] + s;
      assert |sub| <= |s| < |t|;
      assert Contains(t[1..], sub);
    } else {
      assert pre + s == s;
    }
  }

  /** Each part of a join occurs in the joined string. */
  lemma {:induction false} JoinContainsPart(sep: string, parts: seq<string>, i: nat)
    requires i < |parts|
    ensures Contains(Join(sep, parts), parts[i])
    decreases |parts|
  {
    if |parts| == 1 {
      ContainsAt(parts[0], parts[0], 0);
    } else if i == 0 {
      var joined := Join(sep, parts);
      assert joined == parts[0] + (sep + Join(sep, parts[1..]));
      assert joined[0..|parts[0]|] == parts[0];
      ContainsAt(joined, parts[0], 0);
    } else {
      JoinContainsPart(sep, parts[1..], i - 1);
      assert Join(sep, parts) == (parts[0] + sep) + Join(sep, parts[1..]);
      ContainsInSuffix(parts[0] + sep, Join(sep, parts[1..]), parts[i]);
    }
  }

  /** A list of unit objects displays as their `id (type)` texts, in list
      order, joined with ", ". */
  lemma UnitListDisplay(units: seq<Value>)
    requires forall j :: 0 <= j < |units| ==> units[j].VDict?
    ensures AssignedUnitDisplay(VList(units))
            == Some(Join(", ", seq(|units|, j requires 0 <= j < |units| => EntryText(units[j]).value)))
  {
    var texts := seq(|units|, j requires 0 <= j < |units| => EntryText(units[j]).value);
    var parts := EntryTexts(units).value;
    assert forall j :: 0 <= j < |units| ==> parts[j] == texts[j];
    assert parts == texts;
  }

  /** Every unit of a list of unit objects is named in its display. */
  lemma DisplayNamesEveryUnit(units: seq<Value>, i: nat)
    requires forall j :: 0 <= j < |units| ==> units[j].VDict?
    requires i < |units|
    ensures AssignedUnitDisplay(VList(units)).Some?
    ensures Contains(AssignedUnitDisplay(VList(units)).value, EntryText(units[i]).value)
  {
    UnitListDisplay(units);
    var texts := seq(|units|, j requires 0 <= j < |units| => EntryText(units[j]).value);
    JoinContainsPart(", ", texts, i);
  }

  /** A list of unit names displays as those names joined with ", ". */
  lemma StringListDisplay(names: seq<string>)
    ensures AssignedUnitDisplay(VList(seq(|names|, i requires 0 <= i < |names| => VStr(names[i])))) == Some(Join(", ", names))
  {
    var items := seq(|names|, i requires 0 <= i < |names| => VStr(names[i]));
    assert forall i :: 0 <= i < |items| ==> items[i].VStr?;
    var parts := StringItems(items).value;
    assert forall i :: 0 <= i < |names| ==> parts[i] == names[i];
    assert parts == names;
  }

  /** Every name of a list of unit names appears in its display. */
  lemma DisplayNamesEveryString(names: seq<string>, i: nat)
    requires i < |names|
    ensures var display := AssignedUnitDisplay(VList(seq(|names|, j requires 0 <= j < |names| => VStr(names[j]))));
            display.Some? && Contains(display.value, names[i])
  {
    StringListDisplay(names);
    JoinContainsPart(", ", names, i);
  }

  // ---------------------------------------------------------------------------
  // Priorities
  // ---------------------------------------------------------------------------

  const HighBadge := "\U{1F534} HIGH"
  const MediumBadge := "\U{1F7E0} MEDIUM"
  const LowBadge := "\U{1F7E2} LOW"

  /** `get_priority_indicator`: only the exact strings HIGH and MEDIUM get their
      badges; every other value, strings with other case or spacing included,
      shows as LOW. */
  function PriorityIndicator(priority: Value): (badge: string)
    ensures badge == HighBadge <==> priority == VStr("HIGH")
    ensures badge == MediumBadge <==> priority == VStr("MEDIUM")
    ensures badge == LowBadge <==> priority != VStr("HIGH") && priority != VStr("MEDIUM")
  {
    if priority == VStr("HIGH") then HighBadge
    else if priority == VStr("MEDIUM") then MediumBadge
    else LowBadge
  }

  /** `prio_num`: the table's sort key for a priority cell. */
  function PrioNum(priority: Value): (n: int)
    ensures 0 <= n <= 3
  {
    match priority
    case VStr(s) =>
      if Contains(s, "HIGH") then 3
      else if Contains(s, "MEDIUM") then 2
      else if Contains(s, "LOW") then 1
      else 0
    case _ => 0
  }

  /** `score` in `load_initial_details`; None where Python's `in` raises. */
  function Score(priority: Value): Option<int>
  {
    match priority
    case VStr(s) => Some(if Contains(s, "HIGH") then 3 else if Contains(s, "MEDIUM") then 2 else 1)
    case VList(xs) => Some(if VStr("HIGH") in xs then 3 else if VStr("MEDIUM") in xs then 2 else 1)
    case VDict(m) => Some(if "HIGH" in m then 3 else if "MEDIUM" in m then 2 else 1)
    case _ => None
  }

  /** On strings the initial selection's score and the table's sort key agree,
      except that the score ranks an unrecognised priority as LOW. */
  lemma ScoreAgreesWithPrioNum(priority: Value)
    requires priority.VStr?
    ensures Score(priority) == Some(if PrioNum(priority) == 0 then 1 else PrioNum(priority))
  {
  }

  /** Where a priority is 'HIGH', 'MEDIUM' or 'LOW' exactly, its numeric rank is 3, 2 or 1. */
  lemma PrioNumOfCanonical()
    ensures PrioNum(VStr("HIGH")) == 3 && PrioNum(VStr("MEDIUM")) == 2 && PrioNum(VStr("LOW")) == 1
  {
    ContainsAt("HIGH", "HIGH", 0);
    ContainsAt("MEDIUM", "MEDIUM", 0);
    ContainsAt("LOW", "LOW", 0);
    MediumLacksHigh();
    assert !Contains("LOW", "HIGH") && !Contains("LOW", "MEDIUM");
  }

  /** The badge and the sort key agree where the badge is HIGH or MEDIUM and
      on an exact 'LOW'; every other value shows the LOW badge whatever its
      rank. */
  lemma BadgeAgreesWithRank(priority: Value)
    ensures PriorityIndicator(priority) == HighBadge ==> PrioNum(priority) == 3
    ensures PriorityIndicator(priority) == MediumBadge ==> PrioNum(priority) == 2
    ensures priority == VStr("LOW") ==> PriorityIndicator(priority) == LowBadge && PrioNum(priority) == 1
  {
    PrioNumOfCanonical();
  }

  /** Where they disagree: 'VERY HIGH' sorts with the HIGH rows but shows the LOW badge. */
  lemma VeryHighShowsLow()
    ensures PriorityIndicator(VStr("VERY HIGH")) == LowBadge && PrioNum(VStr("VERY HIGH")) == 3
  {
    assert "VERY HIGH"[5..9] == "HIGH";
    ContainsAt("VERY HIGH", "HIGH", 5);
  }

  lemma MediumLacksHigh()
    ensures !Contains("MEDIUM", "HIGH")
  {
    assert !Contains("IUM", "HIGH");
    assert "DIUM"[1..] == "IUM" && "DIUM"[..4][0] != "HIGH"[0];
    assert !Contains("DIUM", "HIGH");
    assert "EDIUM"[1..] == "DIUM" && "EDIUM"[..4][0] != "HIGH"[0];
    assert !Contains("EDIUM", "HIGH");
    assert "MEDIUM"[1..] == "EDIUM" && "MEDIUM"[..4][0] != "HIGH"[0];
  }

  // ---------------------------------------------------------------------------
  // Table order
  // ---------------------------------------------------------------------------

  const UnassignedStatus := "UNASSIGNED"
  /** The helper columns the sort adds and removes again. */
  const HelperColumns: set<string> := {"PRIORITY_NUM", "IS_UNASSIGNED"}

  predicate IsUnassigned(row: Doc)
  {
    Get(row, "STATUS", VNone) == VStr(UnassignedStatus)
  }

  /** The two sort keys, unassigned first and then descending priority, as one number. */
  function Rank(row: Doc): int
  {
    (if IsUnassigned(row) then 4 else 0) + PrioNum(Get(row, "PRIORITY", VNone))
  }

  ghost predicate SortedByRank(rows: seq<Doc>)
  {
    SortedBy(Rank, rows)
  }

  /** Descending order under a key. */
  ghost predicate SortedBy<T>(key: T -> int, xs: seq<T>)
  {
    forall i, j :: 0 <= i < j < |xs| ==> key(xs[i]) >= key(xs[j])
  }

  /** Places `x` after every element keyed at least as high. */
  function InsertBy<T>(key: T -> int, x: T, sorted: seq<T>): (r: seq<T>)
    ensures multiset(r) == multiset(sorted) + multiset{x}
  {
    if |sorted| == 0 then [x]
    else if key(x) > key(sorted[0]) then [x] + sorted
    else
      assert sorted == [sorted[0]] + sorted[1..];
      [sorted[0]] + InsertBy(key, x, sorted[1..])
  }

  /** Inserting into a sorted sequence keeps it sorted. */
  lemma {:induction false} InsertBySorted<T>(key: T -> int, x: T, sorted: seq<T>)
    requires SortedBy(key, sorted)
    ensures SortedBy(key, InsertBy(key, x, sorted))
    ensures |sorted| > 0 ==> InsertBy(key, x, sorted)[0] in {x, sorted[0]}
    decreases |sorted|
  {
    if |sorted| > 0 && key(x) <= key(sorted[0]) {
      var r := InsertBy(key, x, sorted);
      var rest := InsertBy(key, x, sorted[1..]);
      InsertBySorted(key, x, sorted[1..]);
      assert r == [sorted[0]] + rest;
      assert key(rest[0]) <= key(sorted[0]);
      forall i, j | 0 <= i < j < |r|
        ensures key(r[i]) >= key(r[j])
      {
        assert r[j] == rest[j - 1];
        if i > 0 {
          assert r[i] == rest[i - 1];
        } else {
          assert key(rest[0]) >= key(rest[j - 1]);
        }
      }
    }
  }

  /** A stable insertion sort into descending key order. */
  function SortBy<T>(key: T -> int, xs: seq<T>): (r: seq<T>)
    ensures SortedBy(key, r)
    ensures multiset(r) == multiset(xs)
  {
    if |xs| == 0 then []
    else
      assert xs == xs[..|xs| - 1] + [xs[|xs| - 1]];
      var init := SortBy(key, xs[..|xs| - 1]);
      InsertBySorted(key, xs[|xs| - 1], init);
      InsertBy(key, xs[|xs| - 1], init)
  }

  /** Each row without the helper columns. */
  function StripHelpers(rows: seq<Doc>): (r: seq<Doc>)
    ensures |r| == |rows|
    ensures forall i :: 0 <= i < |rows| ==> r[i] == rows[i] - HelperColumns
  {
    if |rows| == 0 then [] else [rows[0] - HelperColumns] + StripHelpers(rows[1..])
  }

  /** `get_sorted_emergencies_df`: the table rows in display order. */
  function SortedEmergencies(rows: seq<Doc>): (r: seq<Doc>)
    ensures multiset(r) == multiset(StripHelpers(rows))
    ensures |r| == |rows|
    ensures forall i :: 0 <= i < |r| ==> r[i].Keys !! HelperColumns
    ensures SortedByRank(r)
  {
    var stripped := StripHelpers(rows);
    var r := SortBy(Rank, stripped);
    assert |r| == |multiset(r)| == |multiset(stripped)| == |rows|;
    forall i | 0 <= i < |r|
      ensures r[i].Keys !! HelperColumns
    {
      assert r[i] in multiset(stripped);
    }
    r
  }

  /** In a table sorted by rank the UNASSIGNED rows come first, and within
      each of the two groups the priority number never increases. */
  lemma SortedTableGroups(r: seq<Doc>, i: nat, j: nat)
    requires SortedByRank(r)
    requires i < j < |r|
    ensures IsUnassigned(r[j]) ==> IsUnassigned(r[i])
    ensures IsUnassigned(r[i]) == IsUnassigned(r[j]) ==>
              PrioNum(Get(r[i], "PRIORITY", VNone)) >= PrioNum(Get(r[j], "PRIORITY", VNone))
  {
  }

  // ---------------------------------------------------------------------------
  // Initial selection
  // ---------------------------------------------------------------------------

  /** Lists and dicts cannot be dict keys: `dict.get` on them raises `TypeError`. */
  predicate Unhashable(v: Value)
  {
    v.VList? || v.VDict?
  }

  /** The status line shown for a selected emergency: the assigned units when
      there are any, else the call's assignment status. None when the status
      lookup raises (an unhashable `ID`, looked up first) or the unit display
      raises. */
  function StatusMessage(row: Doc, statusMap: map<string, string>): (r: Option<string>)
    ensures r.None? <==> Unhashable(Get(row, "ID", VNone)) || AssignedUnitDisplay(Get(row, "ASSIGNED_UNIT", VNone)).None?
    ensures r.Some? && AssignedUnitDisplay(Get(row, "ASSIGNED_UNIT", VNone)).value != "" ==>
              r.value == "Assigned Unit(s): " + AssignedUnitDisplay(Get(row, "ASSIGNED_UNIT", VNone)).value
    ensures r.Some? && AssignedUnitDisplay(Get(row, "ASSIGNED_UNIT", VNone)).value == "" ==>
              var id := Get(row, "ID", VNone);
              r.value == if id.VStr? && id.s in statusMap then statusMap[id.s] else ""
  {
    var id := Get(row, "ID", VNone);
    if Unhashable(id) then None
    else
      var assignStatus := if id.VStr? && id.s in statusMap then statusMap[id.s] else "";
      match AssignedUnitDisplay(Get(row, "ASSIGNED_UNIT", VNone))
      case None => None
      case Some(display) =>
        if display != "" then Some("Assigned Unit(s): " + display)
        else Some(assignStatus)
  }

  /** A row of highest score; None when the table is empty or a score raises. */
  method HighestScored(rows: seq<Doc>) returns (k: Option<nat>)
    ensures k.None? <==> |rows| == 0 || exists j :: 0 <= j < |rows| && RowScore(rows[j]).None?
    ensures k.Some? ==> k.value < |rows|
    ensures k.Some? ==> forall j :: 0 <= j < |rows| ==>
              RowScore(rows[j]).value <= RowScore(rows[k.value]).value
  {
    if |rows| == 0 {
      return None;
    }
    var best := 0;
    var i := 0;
    while i < |rows|
      invariant 0 <= i <= |rows| && best < |rows|
      invariant forall j :: 0 <= j < i ==> RowScore(rows[j]).Some?
      invariant i > 0 ==> best < i
      invariant i > 0 ==> forall j :: 0 <= j < i ==>
                  RowScore(rows[j]).value <= RowScore(rows[best]).value
    {
      var s := RowScore(rows[i]);
      if s.None? {
        return None;
      }
      if i == 0 || s.value > RowScore(rows[best]).value {
        best := i;
      }
      i := i + 1;
    }
    return Some(best);
  }

  datatype Details = NoEmergencies | Selected(row: Doc, statusMessage: string) | DetailsRaised

  /** The priority score of a row. */
  function RowScore(row: Doc): Option<int>
  {
    Score(Get(row, "PRIORITY", VNone))
  }

  /** `top` is a row of `table` scoring at least as high as every row, all of which have a score. */
  ghost predicate HighestIn(top: Doc, table: seq<Doc>)
  {
    && top in table
    && RowScore(top).Some?
    && forall other :: other in table ==> RowScore(other).Some? && RowScore(other).value <= RowScore(top).value
  }

  lemma HighestScoredRow(table: seq<Doc>, k: nat)
    requires k < |table|
    requires forall j :: 0 <= j < |table| ==> RowScore(table[j]).Some?
    requires forall j :: 0 <= j < |table| ==> RowScore(table[j]).value <= RowScore(table[k]).value
    ensures HighestIn(table[k], table)
  {
    forall other | other in table
      ensures RowScore(other).Some? && RowScore(other).value <= RowScore(table[k]).value
    {
      var j :| 0 <= j < |table| && table[j] == other;
    }
  }

  /** `load_initial_details`: the first emergency shown is one of highest
      score; it raises exactly when some score raises or the status line of
      the chosen row does. */
  method LoadInitialDetails(rows: seq<Doc>, statusMap: map<string, string>) returns (d: Details)
    ensures d == NoEmergencies <==> |rows| == 0
    ensures d.Selected? ==>
              && HighestIn(d.row, SortedEmergencies(rows))
              && StatusMessage(d.row, statusMap) == Some(d.statusMessage)
    ensures d.DetailsRaised? ==>
              || (exists other :: other in SortedEmergencies(rows) && RowScore(other).None?)
              || (exists top :: HighestIn(top, SortedEmergencies(rows)) && StatusMessage(top, statusMap).None?)
  {
    var table := SortedEmergencies(rows);
    if |table| == 0 {
      return NoEmergencies;
    }
    var k := HighestScored(table);
    if k.None? {
      var j :| 0 <= j < |table| && RowScore(table[j]).None?;
      assert table[j] in table;
      return DetailsRaised;
    }
    var row := table[k.value];
    HighestScoredRow(table, k.value);
    var msg := StatusMessage(row, statusMap);
    if msg.None? {
      return DetailsRaised;
    }
    return Selected(row, msg.value);
  }

  // ---------------------------------------------------------------------------
  // Assignment requests
  // ---------------------------------------------------------------------------

  /** Display names of unit types and the backend's type names. */
  const UnitTypeMap: map<string, string> :=
    map["Police" := "police", "Ambulance" := "ambulance", "Fire Dept" := "fire_truck"]

  const MissingSelection := "Please select at least one unit type and a valid emergency."
  const AllAssigned := "Unit(s) assigned successfully"

  /** How the backend answered one `assign_unit` request: an OK response whose
      JSON body decoded (Some) or did not (None), a refusal with its body text,
      or an exception raised by the request itself. */
  datatype Reply = Accepted(body: Option<Value>) | Refused(text: string) | RequestFailed(error: string)

  /** The outcome of one request: its result line and the unit it added, if any. */
  datatype Attempt = Attempt(line: string, unit: Option<Value>)

  /** The dashboard's per-call state. */
  datatype Panel = Panel(statusMap: map<string, string>, unitMap: map<string, seq<Value>>)

  datatype AssignUnitsResult =
    | Rejected(message: string)
    | Assigned(message: string, units: seq<Value>)
    | UnknownUnitType

  /** One iteration of the request loop of `assign_units`. */
  function AttemptOne(ut: string, reply: Reply): (a: Attempt)
    ensures Contains(a.line, "assigned.") <== reply.Accepted?
    ensures a.unit.Some? ==> reply.Accepted? && a.unit.value.VDict?
  {
    match reply
    case Accepted(None) =>
      AssignedLineContainsMarker(ut);
      Attempt(ut + " assigned.", Some(VDict(map["unit_id" := VStr(""), "unit_type" := VStr(ut)])))
    case Accepted(Some(VDict(body))) =>
      var assignedUnit := Get(body, "assigned_unit", VStr(""));
      var unitType := Get(body, "unit_type", VStr(ut));
      AssignedLineContainsMarker(ut);
      Attempt(ut + " assigned.",
              if Truthy(assignedUnit) then Some(VDict(map["unit_id" := assignedUnit, "unit_type" := unitType])) else None)
    case Accepted(Some(_)) =>
      // `.get` on a JSON body that is not an object raises inside the inner `try`
      AssignedLineContainsMarker(ut);
      Attempt(ut + " assigned.", Some(VDict(map["unit_id" := VStr(""), "unit_type" := VStr(ut)])))
    case Refused(text) => Attempt(ut + ": " + text, None)
    case RequestFailed(e) => Attempt(ut + ": error " + e, None)
  }

  lemma AssignedLineContainsMarker(ut: string)
    ensures Contains(ut + " assigned.", "assigned.")
  {
    var line := ut + " assigned.";
    assert line[|ut| + 1..|ut| + 1 + |"assigned."|] == "assigned.";
    ContainsAt(line, "assigned.", |ut| + 1);
  }

  /** One attempt per request, in request order. */
  function Attempts(requests: seq<(string, Reply)>): (a: seq<Attempt>)
    ensures |a| == |requests|
    ensures forall i :: 0 <= i < |requests| ==> a[i] == AttemptOne(requests[i].0, requests[i].1)
  {
    seq(|requests|, i requires 0 <= i < |requests| => AttemptOne(requests[i].0, requests[i].1))
  }

  /** `all("assigned." in m for m in msgs)` */
  predicate EveryLineAssigned(attempts: seq<Attempt>)
  {
    forall i :: 0 <= i < |attempts| ==> Contains(attempts[i].line, "assigned.")
  }

  /** The result lines of all requests, in request order. */
  function Lines(attempts: seq<Attempt>): (r: seq<string>)
    ensures |r| == |attempts| && forall i :: 0 <= i < |attempts| ==> r[i] == attempts[i].line
  {
    if |attempts| == 0 then [] else [attempts[0].line] + Lines(attempts[1..])
  }

  /** How many of `attempts` added a unit. */
  function AddedCount(attempts: seq<Attempt>): nat
  {
    if |attempts| == 0 then 0
    else AddedCount(attempts[..|attempts| - 1]) + (if attempts[|attempts| - 1].unit.Some? then 1 else 0)
  }

  /** The units the requests added, in request order: one per attempt that
      added a unit, the unit of attempt `i` coming right after those of the
      attempts before it. */
  function AddedUnits(attempts: seq<Attempt>): (r: seq<Value>)
    ensures |r| == AddedCount(attempts)
    ensures forall i :: 0 <= i < |attempts| && attempts[i].unit.Some? ==>
              AddedCount(attempts[..i]) < |r| && r[AddedCount(attempts[..i])] == attempts[i].unit.value
    ensures forall u :: u in r <==> exists i :: 0 <= i < |attempts| && attempts[i].unit == Some(u)
  {
    if |attempts| == 0 then []
    else
      var n := |attempts| - 1;
      var init := attempts[..n];
      var prev := AddedUnits(init);
      assert forall i :: 0 <= i < n ==> init[..i] == attempts[..i];
      prev + (if attempts[n].unit.Some? then [attempts[n].unit.value] else [])
  }

  /** The units of `incoming` that are not already in `prev`, in order and
      with their repeats. */
  function NotIn(incoming: seq<Value>, prev: seq<Value>): (r: seq<Value>)
    ensures forall u :: u in r <==> u in incoming && u !in prev
    ensures forall u :: multiset(r)[u] == if u in prev then 0 else multiset(incoming)[u]
    ensures Subsequence(r, incoming)
    ensures NoDuplicates(incoming) ==> NoDuplicates(r)
  {
    if |incoming| == 0 then []
    else
      var n := |incoming| - 1;
      var init := NotIn(incoming[..n], prev);
      NotInStep(incoming, prev, init);
      if incoming[n] in prev then init else init + [incoming[n]]
  }

  /** One more incoming unit: kept exactly when it is not in `prev`. */
  lemma NotInStep(incoming: seq<Value>, prev: seq<Value>, init: seq<Value>)
    requires |incoming| > 0
    requires var before := incoming[..|incoming| - 1];
             && (forall u :: u in init <==> u in before && u !in prev)
             && (forall u :: multiset(init)[u] == if u in prev then 0 else multiset(before)[u])
             && Subsequence(init, before)
             && (NoDuplicates(before) ==> NoDuplicates(init))
    ensures var x := incoming[|incoming| - 1];
            var r := if x in prev then init else init + [x];
            && (forall u :: u in r <==> u in incoming && u !in prev)
            && (forall u :: multiset(r)[u] == if u in prev then 0 else multiset(incoming)[u])
            && Subsequence(r, incoming)
            && (NoDuplicates(incoming) ==> NoDuplicates(r))
  {
    var n := |incoming| - 1;
    var before := incoming[..n];
    var x := incoming[n];
    var r := if x in prev then init else init + [x];
    assert incoming == before + [x];
    NotInStepMembers(before, x, prev, init);
    NotInStepCounts(before, x, prev, init);
    NotInStepOrder(incoming, x in prev, init);
    NotInStepUnique(before, x, prev, init);
  }

  lemma NotInStepMembers(before: seq<Value>, x: Value, prev: seq<Value>, init: seq<Value>)
    requires forall u :: u in init <==> u in before && u !in prev
    ensures var r := if x in prev then init else init + [x];
            forall u :: u in r <==> u in before + [x] && u !in prev
  {
  }

  lemma NotInStepCounts(before: seq<Value>, x: Value, prev: seq<Value>, init: seq<Value>)
    requires forall u :: multiset(init)[u] == if u in prev then 0 else multiset(before)[u]
    ensures var r := if x in prev then init else init + [x];
            forall u :: multiset(r)[u] == if u in prev then 0 else multiset(before + [x])[u]
  {
    assert multiset(before + [x]) == multiset(before) + multiset{x};
    assert multiset(init + [x]) == multiset(init) + multiset{x};
  }

  lemma NotInStepOrder(incoming: seq<Value>, dropped: bool, init: seq<Value>)
    requires |incoming| > 0 && Subsequence(init, incoming[..|incoming| - 1])
    ensures Subsequence(if dropped then init else init + [incoming[|incoming| - 1]], incoming)
  {
    if !dropped {
      var r := init + [incoming[|incoming| - 1]];
      assert r[..|r| - 1] == init;
    }
  }

  /** Appending an element not yet present keeps a sequence free of duplicates. */
  lemma NotInStepUnique(before: seq<Value>, x: Value, prev: seq<Value>, init: seq<Value>)
    requires forall u :: u in init ==> u in before
    requires NoDuplicates(before) ==> NoDuplicates(init)
    ensures var r := if x in prev then init else init + [x];
            NoDuplicates(before + [x]) ==> NoDuplicates(r)
  {
    var ys := before + [x];
    if NoDuplicates(ys) {
      forall i, j | 0 <= i < j < |before| ensures before[i] != before[j] {
        assert ys[i] == before[i] && ys[j] == before[j];
      }
      forall k | 0 <= k < |before| ensures before[k] != x {
        assert ys[k] == before[k] && ys[|before|] == x;
      }
      NoDuplicatesSnoc(init, x);
    }
  }

  lemma NoDuplicatesSnoc(xs: seq<Value>, x: Value)
    ensures NoDuplicates(xs) && x !in xs ==> NoDuplicates(xs + [x])
  {
    if NoDuplicates(xs) && x !in xs {
      var ys := xs + [x];
      forall i, j | 0 <= i < j < |ys| ensures ys[i] != ys[j] {
        if j == |xs| {
          assert ys[i] == xs[i];
        }
      }
    }
  }

  /** `prev_units + [u for u in assigned_units if u not in prev_units]` */
  function MergeUnits(prev: seq<Value>, incoming: seq<Value>): (r: seq<Value>)
    ensures |r| >= |prev| && r[..|prev|] == prev
    ensures forall u :: u in r <==> u in prev || u in incoming
    ensures forall i :: |prev| <= i < |r| ==> r[i] !in prev
    ensures NoDuplicates(prev) && NoDuplicates(incoming) ==> NoDuplicates(r)
  {
    var added := NotIn(incoming, prev);
    var r := prev + added;
    assert forall i :: |prev| <= i < |r| ==> r[i] == added[i - |prev|];
    r
  }

  /** `assign_units`: sends one request per selected unit type, records a
      summary in the status map and merges the units it got into the unit map. */
  function AssignUnits(panel: Panel, callId: string, requests: seq<(string, Reply)>): (res: (AssignUnitsResult, Panel))
    ensures callId == "" || |requests| == 0 ==> res == (Rejected(MissingSelection), panel)
    ensures res.0.Rejected? <==> callId == "" || |requests| == 0
    ensures res.0.Assigned? <==>
              callId != "" && |requests| > 0 && forall i :: 0 <= i < |requests| ==> requests[i].0 in UnitTypeMap
    ensures res.0.UnknownUnitType? <==>
              callId != "" && |requests| > 0 && exists i :: 0 <= i < |requests| && requests[i].0 !in UnitTypeMap
    ensures res.0.UnknownUnitType? ==> res.1 == panel
    ensures res.0.Assigned? ==>
              var attempts := Attempts(requests);
              && (EveryLineAssigned(attempts) ==> res.0.message == AllAssigned)
              && (!EveryLineAssigned(attempts) ==> res.0.message == Join("; ", Lines(attempts)))
              && res.1.statusMap == panel.statusMap[callId := res.0.message]
              && res.0.units == AddedUnits(attempts)
              && (res.0.units == [] ==> res.1.unitMap == panel.unitMap)
              && (res.0.units != [] && callId in panel.unitMap ==>
                    res.1.unitMap == panel.unitMap[callId := MergeUnits(panel.unitMap[callId], res.0.units)])
              && (res.0.units != [] && callId !in panel.unitMap ==>
                    res.1.unitMap == panel.unitMap[callId := res.0.units])
  {
    if callId == "" || |requests| == 0 then (Rejected(MissingSelection), panel)
    else if exists i :: 0 <= i < |requests| && requests[i].0 !in UnitTypeMap then
      // `UNIT_TYPE_MAP[ut]` raises KeyError before either map is written
      (UnknownUnitType, panel)
    else
      var attempts := Attempts(requests);
      var msg := if EveryLineAssigned(attempts) then AllAssigned else Join("; ", Lines(attempts));
      var added := AddedUnits(attempts);
      var unitMap :=
        if added == [] then panel.unitMap
        else if callId in panel.unitMap then panel.unitMap[callId := MergeUnits(panel.unitMap[callId], added)]
        else panel.unitMap[callId := added];
      (Assigned(msg, added), Panel(panel.statusMap[callId := msg], unitMap))
  }

  /** Every unit the dashboard records for a call is a unit object, so the
      call's assigned-unit display never raises and names each of them. */
  lemma RecordedUnitsDisplay(panel: Panel, callId: string, requests: seq<(string, Reply)>, i: nat)
    requires forall c :: c in panel.unitMap ==> forall u :: u in panel.unitMap[c] ==> u.VDict?
    requires var res := AssignUnits(panel, callId, requests);
             callId in res.1.unitMap && i < |res.1.unitMap[callId]|
    ensures var units := AssignUnits(panel, callId, requests).1.unitMap[callId];
            && AssignedUnitDisplay(VList(units)).Some?
            && EntryText(units[i]).Some?
            && Contains(AssignedUnitDisplay(VList(units)).value, EntryText(units[i]).value)
  {
    var units := AssignUnits(panel, callId, requests).1.unitMap[callId];
    RecordedUnitsAreObjects(panel, callId, requests);
    assert forall j :: 0 <= j < |units| ==> units[j] in units;
    DisplayNamesEveryUnit(units, i);
  }

  lemma RecordedUnitsAreObjects(panel: Panel, callId: string, requests: seq<(string, Reply)>)
    requires forall c :: c in panel.unitMap ==> forall u :: u in panel.unitMap[c] ==> u.VDict?
    ensures var m := AssignUnits(panel, callId, requests).1.unitMap;
            forall c :: c in m ==> forall u :: u in m[c] ==> u.VDict?
  {
    if AssignUnits(panel, callId, requests).0.Assigned? {
      assert forall u :: u in AddedUnits(Attempts(requests)) ==> u.VDict?;
    }
  }
}

=== FILE: emergencies_api.dfy ===
/**
  The read side of the emergency store (backend/app/services/emergencies_api.py):
  shaping a stored document for the dashboard and looking one up by call id.
 */
module EmergenciesApi {
  import opened Wrappers
  import opened Values
  import Persistence

  /** Keys filled in with a default when the stored document lacks them. */
  const Defaults: map<string, Value> :=
    map["call_id" := VStr(""), "emergency_type" := VStr(""), "priority" := VStr("LOW"),
        "caller_name" := VStr(""), "status" := VStr("OPEN"), "location" := VStr(""),
        "latitude" := VStr(""), "longitude" := VStr(""), "transcript" := VStr("")]

  /** The recommendation shown to the dispatcher: an existing `ai_recommendation`,
      else the analysis' `recommended_actions`, else the empty string. */
  function Recommendation(doc: Doc): Value
  {
    if "ai_recommendation" in doc then doc["ai_recommendation"]
    else Get(doc, "recommended_actions", VStr(""))
  }

  /** `serialize_emergency`: a renamed and defaulted copy of a stored document. */
  function Serialize(doc: Doc): (out: Doc)
    ensures "_id" !in out
    ensures "id" in out && out["id"] == VStr(if "_id" in doc then PyStr(doc["_id"]) else "")
    ensures forall k :: k in Defaults ==> k in out && out[k] == (if k in doc then doc[k] else Defaults[k])
    ensures "ai_recommendation" in out
    ensures "ai_recommendation" in doc ==> out["ai_recommendation"] == doc["ai_recommendation"]
    ensures "ai_recommendation" !in doc && "recommended_actions" in doc ==>
              out["ai_recommendation"] == doc["recommended_actions"]
    ensures "ai_recommendation" !in doc && "recommended_actions" !in doc ==>
              out["ai_recommendation"] == VStr("")
    ensures forall k :: k in doc && k != "_id" && k != "id" && k != "ai_recommendation" ==> k in out && out[k] == doc[k]
    ensures out.Keys == (doc.Keys - {"_id"}) + Defaults.Keys + {"id", "ai_recommendation"}
  {
    DefaultsLeaveIdsAlone();
    var filled := WithDefaults(doc - {"_id"});
    filled["id" := VStr(PyStr(Get(doc, "_id", VStr(""))))]["ai_recommendation" := Recommendation(doc)]
  }

  /** The `doc.get(k, default)` assignments for every defaulted key. */
  function WithDefaults(base: Doc): (filled: Doc)
    ensures filled.Keys == base.Keys + Defaults.Keys
    ensures forall k :: k in base ==> filled[k] == base[k]
    ensures forall k :: k in Defaults && k !in base ==> filled[k] == Defaults[k]
  {
    map k | k in base.Keys + Defaults.Keys :: if k in base then base[k] else Defaults[k]
  }

  /** The keys serialization sets itself are not defaulted ones. */
  lemma DefaultsLeaveIdsAlone()
    ensures "_id" !in Defaults && "id" !in Defaults && "ai_recommendation" !in Defaults
  {
  }

  /** Index of the first document whose `call_id` matches, in store order. */
  function FindByCallId(collection: seq<Doc>, callId: string): (i: Option<nat>)
    ensures i.Some? ==> i.value < |collection| && FieldMatches(collection[i.value], "call_id", VStr(callId))
    ensures i.Some? ==> forall j :: 0 <= j < i.value ==> !FieldMatches(collection[j], "call_id", VStr(callId))
    ensures i.None? ==> forall j :: 0 <= j < |collection| ==> !FieldMatches(collection[j], "call_id", VStr(callId))
  {
    if |collection| == 0 then None
    else if FieldMatches(collection[0], "call_id", VStr(callId)) then Some(0)
    else match FindByCallId(collection[1..], callId)
      case None => None
      case Some(i) => Some(i + 1)
  }

  /** `get_emergency_by_call_id`: the first matching document, serialized, or 404. */
  function GetEmergencyByCallId(collection: seq<Doc>, callId: string): (r: Result<Doc, HttpError>)
    ensures r.Err? <==> forall j :: 0 <= j < |collection| ==> !FieldMatches(collection[j], "call_id", VStr(callId))
    ensures r.Err? ==> r.error == HttpError(404, "Emergency not found")
    ensures r.Ok? ==> exists j :: 0 <= j < |collection| && FieldMatches(collection[j], "call_id", VStr(callId))
                                   && r.value == Serialize(collection[j])
  {
    match FindByCallId(collection, callId)
    case None => Err(HttpError(404, "Emergency not found"))
    case Some(i) =>
      // a matched document holds `call_id`, so `if not doc` cannot fire
      Ok(Serialize(collection[i]))
  }

  /** A key the document already holds keeps its value, defaults notwithstanding,
      unless it is one of the three keys serialization rewrites. */
  lemma SerializeKeepsPresent(doc: Doc, k: string)
    requires k in doc && k != "_id" && k != "id" && k != "ai_recommendation"
    ensures k in Serialize(doc) && Serialize(doc)[k] == doc[k]
  {
  }

  /** A document written for a call reads back with its generated id as `id`,
      the call's id and transcript, its timestamp and the status `unassigned`. */
  lemma StoredEmergencyReadsBack(data: Doc, transcript: string, callId: string, now: Value, hex: string)
    ensures var out := Serialize(Persistence.BuildDocument(data, transcript, callId, now)["_id" := VObjectId(hex)]);
            && "_id" !in out
            && "id" in out && out["id"] == VStr(hex)
            && "call_id" in out && out["call_id"] == VStr(callId)
            && "transcript" in out && out["transcript"] == VStr(transcript)
            && "status" in out && out["status"] == VStr(Persistence.Unassigned)
            && "time" in out && out["time"] == now
  {
    var built := Persistence.BuildDocument(data, transcript, callId, now);
    var stored := built["_id" := VObjectId(hex)];
    assert "call_id" in built && "transcript" in built && "status" in built && "time" in built;
    SerializeKeepsPresent(stored, "call_id");
    SerializeKeepsPresent(stored, "transcript");
    SerializeKeepsPresent(stored, "status");
    SerializeKeepsPresent(stored, "time");
  }

  /** Every analysis field and coordinate of a written document reads back as
      the enriched analysis gave it: None where it had no value, never the read
      side's default. */
  lemma StoredAnalysisReadsBack(data: Doc, transcript: string, callId: string, now: Value, hex: string, k: string)
    requires k in Persistence.AnalysisFields + Persistence.CoordinateFields
    ensures var out := Serialize(Persistence.BuildDocument(data, transcript, callId, now)["_id" := VObjectId(hex)]);
            k in out && out[k] == Get(data, k, VNone)
  {
    var stored := Persistence.BuildDocument(data, transcript, callId, now)["_id" := VObjectId(hex)];
    NoWrittenKeyIsRewritten();
    SerializeKeepsPresent(stored, k);
  }

  /** The recommendation shown for a written document is the analysis'
      recommended actions (None when the analysis had none). */
  lemma StoredRecommendationReadsBack(data: Doc, transcript: string, callId: string, now: Value, hex: string)
    ensures var out := Serialize(Persistence.BuildDocument(data, transcript, callId, now)["_id" := VObjectId(hex)]);
            out["ai_recommendation"] == Get(data, "recommended_actions", VNone)
  {
    var doc := Persistence.BuildDocument(data, transcript, callId, now);
    var stored := doc["_id" := VObjectId(hex)];
    WrittenKeysOmitRecommendation();
    assert "ai_recommendation" !in stored;
    assert stored["recommended_actions"] == doc["recommended_actions"];
    SerializeFallsBackToActions(stored);
  }

  /** No key of a written document is one that serialization rewrites. */
  lemma NoWrittenKeyIsRewritten()
    ensures "_id" !in Persistence.DocumentKeys
    ensures "id" !in Persistence.DocumentKeys
    ensures "ai_recommendation" !in Persistence.DocumentKeys
  {
    Persistence.IdIsNotAField();
  }

  /** The write side never stores an `ai_recommendation` but always `recommended_actions`. */
  lemma WrittenKeysOmitRecommendation()
    ensures "ai_recommendation" !in Persistence.DocumentKeys
    ensures "recommended_actions" in Persistence.AnalysisFields
  {
  }

  /** Without an `ai_recommendation`, the recommended actions are shown. */
  lemma SerializeFallsBackToActions(doc: Doc)
    requires "ai_recommendation" !in doc && "recommended_actions" in doc
    ensures Serialize(doc)["ai_recommendation"] == doc["recommended_actions"]
  {
  }

  /** Once a call's record is written, looking up the call no longer fails. */
  lemma InsertedEmergencyIsFound(collection: seq<Doc>, data: Doc, transcript: string, callId: string,
                                 now: Value, hex: string)
    ensures GetEmergencyByCallId(
              Persistence.InsertEmergency(collection, data, transcript, callId, now, Some(hex)).collection,
              callId).Ok?
  {
    var after := Persistence.InsertEmergency(collection, data, transcript, callId, now, Some(hex)).collection;
    var doc := after[|collection|];
    assert doc - {"_id"} == Persistence.BuildDocument(data, transcript, callId, now);
    assert "call_id" in doc - {"_id"};
    assert doc["call_id"] == (doc - {"_id"})["call_id"] == VStr(callId);
    assert FieldMatches(after[|collection|], "call_id", VStr(callId));
  }
}

=== FILE: geolocation.dfy ===
/**
  Coordinate enrichment of an analysis result (backend/app/services/geolocation_service.py).
  The HTTP lookup is a parameter: the model receives what the geocoder answered
  and decides how the record changes.
 */
module Geolocation {
  import opened Wrappers
  import opened Values

  const LocationKey := "location"
  const LatitudeKey := "latitude"
  const LongitudeKey := "longitude"

  /** One entry of the geocoder's result list. A coordinate is None when its
      key is missing or `float()` rejects it. */
  datatype Hit = Hit(lat: Option<Value>, lon: Option<Value>)

  /** What the lookup produced: a failure anywhere in the request, the HTTP
      status check or the JSON decoding, or the decoded result list. */
  datatype Lookup = LookupFailed | Results(hits: seq<Hit>)

  /** The record handed back, and whether the geocoder was asked at all. */
  datatype Enrichment = Enrichment(record: Doc, queried: bool)

  /** `if not location` guards the lookup: a missing, None or empty location is skipped. */
  predicate HasLocation(record: Doc)
  {
    Truthy(Get(record, LocationKey, VNone))
  }

  /** Every key other than the two coordinates is present in both records with the same value. */
  ghost predicate SameExceptCoordinates(a: Doc, b: Doc)
  {
    forall k :: k != LatitudeKey && k != LongitudeKey ==>
      (k in a <==> k in b) && (k in a ==> a[k] == b[k])
  }

  /** The first hit, when both its coordinates parse. */
  function FirstCoordinates(lookup: Lookup): Option<(Value, Value)>
  {
    if lookup.Results? && |lookup.hits| > 0 && lookup.hits[0].lat.Some? && lookup.hits[0].lon.Some?
    then Some((lookup.hits[0].lat.value, lookup.hits[0].lon.value))
    else None
  }

  /** `enrich_with_coordinates` as written: latitude is stored before the
      longitude is parsed, so a longitude that fails to parse leaves the
      latitude behind. */
  function EnrichAsWritten(record: Doc, lookup: Lookup): (e: Enrichment)
    ensures e.queried <==> HasLocation(record)
    ensures SameExceptCoordinates(record, e.record)
    ensures e.record != record ==>
              && HasLocation(record) && lookup.Results? && |lookup.hits| > 0 && lookup.hits[0].lat.Some?
              && LatitudeKey in e.record && e.record[LatitudeKey] == lookup.hits[0].lat.value
    ensures HasLocation(record) && FirstCoordinates(lookup).Some? ==>
              && LatitudeKey in e.record && e.record[LatitudeKey] == lookup.hits[0].lat.value
              && LongitudeKey in e.record && e.record[LongitudeKey] == lookup.hits[0].lon.value
    ensures HasLocation(record) && lookup.Results? && |lookup.hits| > 0
            && lookup.hits[0].lat.Some? && lookup.hits[0].lon.None? ==>
              e.record == record[LatitudeKey := lookup.hits[0].lat.value]
  {
    if !HasLocation(record) then Enrichment(record, false)
    else match lookup
      case LookupFailed => Enrichment(record, true)
      case Results(hits) =>
        if |hits| == 0 then Enrichment(record, true)
        else match hits[0].lat
          case None => Enrichment(record, true)
          case Some(la) =>
            var withLat := record[LatitudeKey := la];
            match hits[0].lon
            case None => Enrichment(withLat, true)
            case Some(lo) => Enrichment(withLat[LongitudeKey := lo], true)
  }

  /** The discrepancy: a first hit whose longitude does not parse changes the
      record, although the lookup as a whole failed. */
  lemma PartialEnrichment()
    ensures var record := map[LocationKey := VStr("123 Main St")];
            var lookup := Results([Hit(Some(VFloat("40.0")), None)]);
            var e := EnrichAsWritten(record, lookup);
            FirstCoordinates(lookup).None?
            && e.record != record
            && LatitudeKey in e.record && LongitudeKey !in e.record
  {
    var record := map[LocationKey := VStr("123 Main St")];
    assert LatitudeKey !in record;
  }

  /** Enrichment that applies both coordinates of the first hit or nothing. */
  function Enrich(record: Doc, lookup: Lookup): (e: Enrichment)
    ensures e.queried <==> HasLocation(record)
    ensures SameExceptCoordinates(record, e.record)
    ensures HasLocation(record) && FirstCoordinates(lookup).Some? ==>
              && LatitudeKey in e.record && e.record[LatitudeKey] == lookup.hits[0].lat.value
              && LongitudeKey in e.record && e.record[LongitudeKey] == lookup.hits[0].lon.value
    ensures !HasLocation(record) || FirstCoordinates(lookup).None? ==> e.record == record
  {
    if !HasLocation(record) then Enrichment(record, false)
    else match FirstCoordinates(lookup)
      case None => Enrichment(record, true)
      case Some(c) => Enrichment(record[LatitudeKey := c.0][LongitudeKey := c.1], true)
  }

  /** The lookup did not stop half-way: the first hit parses completely, or
      not even its latitude does, or there is no hit at all. */
  predicate NotHalfParsed(lookup: Lookup)
  {
    FirstCoordinates(lookup).Some? || lookup.LookupFailed? || (lookup.Results? && (|lookup.hits| == 0 || lookup.hits[0].lat.None?))
  }

  /** Where the first hit parses completely, the code as written and the
      all-or-nothing enrichment agree; they differ only on a half-parsed hit. */
  lemma EnrichAgreesWhenHitParses(record: Doc, lookup: Lookup)
    requires NotHalfParsed(lookup)
    ensures EnrichAsWritten(record, lookup) == Enrich(record, lookup)
  {
  }
}

=== FILE: persistence.dfy ===
/**
  The document written for an analysed call (backend/app/services/mongodb_service.py).
  The store's collection is a sequence of documents in insertion order; whether
  the write goes through is a parameter.
 */
module Persistence {
  import opened Wrappers
  import opened Values

  /** The analysis fields copied from the analysis result, absent ones as None. */
  const AnalysisFields: set<string> :=
    {"emergency_type", "priority", "location", "caller_name", "critical_info",
     "priority_explanation", "recommended_actions"}

  /** The coordinates copied from the enriched record, absent ones as None. */
  const CoordinateFields: set<string> := {"latitude", "longitude"}

  /** Every key a new document has. */
  const DocumentKeys: set<string> :=
    AnalysisFields + CoordinateFields + {"call_id", "transcript", "time", "status"}

  /** The status every new document starts with. */
  const Unassigned := "unassigned"

  /** The document `insert_emergency_data` builds before writing it. */
  function BuildDocument(data: Doc, transcript: string, callId: string, now: Value): (doc: Doc)
    ensures doc.Keys == DocumentKeys
    ensures doc["call_id"] == VStr(callId)
    ensures doc["transcript"] == VStr(transcript)
    ensures doc["status"] == VStr(Unassigned)
    ensures doc["time"] == now
    ensures forall k :: k in AnalysisFields + CoordinateFields ==>
              doc[k] == (if k in data then data[k] else VNone)
    ensures forall k :: k in data && k !in DocumentKeys ==> k !in doc
  {
    SetKeysAreNotCopied();
    Copied(data)["call_id" := VStr(callId)]["transcript" := VStr(transcript)]
                ["time" := now]["status" := VStr(Unassigned)]
  }

  /** The keys `insert_emergency_data` sets itself are not copied from the analysis. */
  lemma SetKeysAreNotCopied()
    ensures "call_id" !in AnalysisFields + CoordinateFields
    ensures "transcript" !in AnalysisFields + CoordinateFields
    ensures "time" !in AnalysisFields + CoordinateFields
    ensures "status" !in AnalysisFields + CoordinateFields
  {
  }

  /** The `data.get(k)` copies of the analysis fields and coordinates. */
  function Copied(data: Doc): (copied: Doc)
    ensures copied.Keys == AnalysisFields + CoordinateFields
    ensures forall k :: k in copied ==> copied[k] == Get(data, k, VNone)
  {
    map k | k in AnalysisFields + CoordinateFields :: Get(data, k, VNone)
  }

  /** The store's own `_id` is not among the keys a new document is built with. */
  lemma IdIsNotAField()
    ensures "_id" !in DocumentKeys
  {
  }

  /** The collection after the write, and the id `insert_emergency_data` returns. */
  datatype Insertion = Insertion(collection: seq<Doc>, insertedId: Option<Value>)

  /** `insert_emergency_data`: `written` is the ObjectId the store generated, or
      None when the write raised. On success the stored document carries the
      generated `_id`; on failure nothing is stored and None is returned. */
  function InsertEmergency(collection: seq<Doc>, data: Doc, transcript: string, callId: string,
                           now: Value, written: Option<string>): (r: Insertion)
    ensures r.insertedId.Some? <==> written.Some?
    ensures written.None? ==> r.collection == collection
    ensures written.Some? ==>
              && r.insertedId == Some(VObjectId(written.value))
              && |r.collection| == |collection| + 1
              && r.collection[..|collection|] == collection
              && "_id" in r.collection[|collection|]
              && r.collection[|collection|]["_id"] == VObjectId(written.value)
              && r.collection[|collection|] - {"_id"} == BuildDocument(data, transcript, callId, now)
  {
    match written
    case None => Insertion(collection, None)
    case Some(hex) =>
      IdIsNotAField();
      Stamped(collection, BuildDocument(data, transcript, callId, now), hex)
  }

  /** `insert_one` of a document without `_id`: the store adds the generated id
      and appends the document. */
  function Stamped(collection: seq<Doc>, built: Doc, hex: string): (r: Insertion)
    requires "_id" !in built
    ensures r.insertedId == Some(VObjectId(hex))
    ensures |r.collection| == |collection| + 1 && r.collection[..|collection|] == collection
    ensures "_id" in r.collection[|collection|] && r.collection[|collection|]["_id"] == VObjectId(hex)
    ensures r.collection[|collection|] - {"_id"} == built
  {
    var doc := built["_id" := VObjectId(hex)];
    assert doc - {"_id"} == built by {
      assert doc.Keys - {"_id"} == built.Keys;
    }
    Insertion(collection + [doc], Some(VObjectId(hex)))
  }
}

=== FILE: units.dfy ===
/**
  The response-unit registry (backend/app/services/units_api.py). The `units`
  collection is a sequence of unit records in the store's natural order; the
  timestamp written with each change is a parameter.
 */
module Units {
  import opened Wrappers
  import opened Values

  /** The status a new unit starts with, and the one dispatch looks for. */
  const Available := "available"

  datatype Unit = Unit(unitId: string, unitType: string, status: string, location: string, lastUpdated: Value)

  /** The filter `{"type": t, "status": status}`. */
  predicate Matches(u: Unit, t: string, status: string)
  {
    u.unitType == t && u.status == status
  }

  /** The positions of the units the filter `{"type": t, "status": status}` selects. */
  ghost function MatchingPositions(units: seq<Unit>, t: string, status: string): set<nat>
  {
    set i: nat | i < |units| && Matches(units[i], t, status)
  }

  /** `count_documents({"type": t, "status": status})`. */
  function UnitCount(units: seq<Unit>, t: string, status: string): nat
  {
    if |units| == 0 then 0
    else UnitCount(units[..|units| - 1], t, status) + (if Matches(units[|units| - 1], t, status) then 1 else 0)
  }

  /** `get_unit_count` with its default status: the available units of a type. */
  function AvailableCount(units: seq<Unit>, t: string): nat
  {
    UnitCount(units, t, Available)
  }

  /** The positions matching in a sequence are those matching in its prefix,
      plus its last position when that one matches. */
  lemma MatchingPositionsStep(units: seq<Unit>, t: string, status: string)
    requires |units| > 0
    ensures var last := |units| - 1;
            MatchingPositions(units, t, status)
            == MatchingPositions(units[..last], t, status) + (if Matches(units[last], t, status) then {last} else {})
  {
    var last := |units| - 1;
    var init := units[..last];
    var whole := MatchingPositions(units, t, status);
    var prefix := MatchingPositions(init, t, status);
    var extra: set<nat> := if Matches(units[last], t, status) then {last} else {};
    forall i | i in whole ensures i in prefix + extra {
      if i < last {
        assert init[i] == units[i];
      }
    }
    forall i | i in prefix + extra ensures i in whole {
      if i in prefix {
        assert init[i] == units[i];
      }
    }
  }

  /** The count is the number of positions holding a matching unit. */
  lemma {:induction false} UnitCountCountsMatches(units: seq<Unit>, t: string, status: string)
    ensures UnitCount(units, t, status) == |MatchingPositions(units, t, status)|
  {
    if |units| > 0 {
      var last := |units| - 1;
      var init := units[..last];
      UnitCountCountsMatches(init, t, status);
      MatchingPositionsStep(units, t, status);
      assert last !in MatchingPositions(init, t, status);
    }
  }

  /** The units of one type, in store order. */
  function OfType(units: seq<Unit>, t: string): (r: seq<Unit>)
    ensures forall u :: u in r <==> u in units && u.unitType == t
    ensures forall u :: multiset(r)[u] == if u.unitType == t then multiset(units)[u] else 0
    ensures Subsequence(r, units)
  {
    if |units| == 0 then []
    else
      var init := OfType(units[..|units| - 1], t);
      assert units == units[..|units| - 1] + [units[|units| - 1]];
      assert forall u :: u in units <==> u in units[..|units| - 1] || u == units[|units| - 1];
      if units[|units| - 1].unitType == t then init + [units[|units| - 1]] else init
  }

  /** `get_units(type)`: scans the store once, keeping the units of that type. */
  method GetUnits(units: seq<Unit>, t: string) returns (r: seq<Unit>)
    ensures r == OfType(units, t)
    ensures forall u :: u in r <==> u in units && u.unitType == t
  {
    r := [];
    var i := 0;
    while i < |units|
      invariant i <= |units|
      invariant r == OfType(units[..i], t)
    {
      assert units[..i + 1][..i] == units[..i];
      if units[i].unitType == t {
        r := r + [units[i]];
      }
      i := i + 1;
    }
    assert units[..i] == units;
  }

  /** Position of the first unit with this id: `update_one` changes that one. */
  function FirstWithId(units: seq<Unit>, unitId: string): (i: Option<nat>)
    ensures i.Some? ==> i.value < |units| && units[i.value].unitId == unitId
    ensures i.Some? ==> forall j :: 0 <= j < i.value ==> units[j].unitId != unitId
    ensures i.None? ==> forall j :: 0 <= j < |units| ==> units[j].unitId != unitId
  {
    if |units| == 0 then None
    else if units[0].unitId == unitId then Some(0)
    else match FirstWithId(units[1..], unitId)
      case None => None
      case Some(i) => Some(i + 1)
  }

  datatype StatusUpdate = StatusUpdate(units: seq<Unit>, unitId: string, newStatus: string)

  /** `update_unit_status`: sets status and timestamp of the first unit with
      that id, or answers 404 when the store has none. */
  function UpdateUnitStatus(units: seq<Unit>, unitId: string, status: string, now: Value): (r: Result<StatusUpdate, HttpError>)
    ensures r.Err? <==> forall j :: 0 <= j < |units| ==> units[j].unitId != unitId
    ensures r.Err? ==> r.error == HttpError(404, "Unit not found")
    ensures r.Ok? ==> r.value.unitId == unitId && r.value.newStatus == status && |r.value.units| == |units|
    ensures r.Ok? ==> exists i :: 0 <= i < |units| && units[i].unitId == unitId
                        && (forall j :: 0 <= j < i ==> units[j].unitId != unitId)
                        && r.value.units[i] == units[i].(status := status, lastUpdated := now)
                        && (forall j :: 0 <= j < |units| && j != i ==> r.value.units[j] == units[j])
  {
    match FirstWithId(units, unitId)
    case None => Err(HttpError(404, "Unit not found"))
    case Some(i) => Ok(StatusUpdate(units[i := units[i].(status := status, lastUpdated := now)], unitId, status))
  }

  /** `add_unit`: appends an available unit; an id already in use is not rejected. */
  function AddUnit(units: seq<Unit>, unitId: string, t: string, location: string, now: Value): (r: seq<Unit>)
    ensures |r| == |units| + 1 && r[..|units|] == units
    ensures r[|units|] == Unit(unitId, t, Available, location, now)
  {
    units + [Unit(unitId, t, Available, location, now)]
  }

  /** Adding a unit makes one more unit of its type available and leaves every
      other count as it was. */
  lemma AddUnitCounts(units: seq<Unit>, unitId: string, t: string, location: string, now: Value,
                      t': string, status: string)
    ensures UnitCount(AddUnit(units, unitId, t, location, now), t', status)
            == UnitCount(units, t', status) + (if t' == t && status == Available then 1 else 0)
  {
    assert AddUnit(units, unitId, t, location, now)[..|units|] == units;
  }

  /** A second unit with an id already in the store is accepted: afterwards two
      units carry that id. */
  lemma AddUnitKeepsDuplicateIds(units: seq<Unit>, unitId: string, t: string, location: string, now: Value)
    requires FirstWithId(units, unitId).Some?
    ensures var r := AddUnit(units, unitId, t, location, now);
            exists i, j :: 0 <= i < j < |r| && r[i].unitId == unitId && r[j].unitId == unitId
  {
    var r := AddUnit(units, unitId, t, location, now);
    var i := FirstWithId(units, unitId).value;
    assert r[i].unitId == unitId && r[|units|].unitId == unitId;
  }

  /** Changing one unit's status moves it from the count of its old status to
      the count of its new one. */
  lemma {:induction false} CountAfterStatusChange(units: seq<Unit>, i: nat, status: string, now: Value, t: string, s: string)
    requires i < |units|
    ensures var after := units[i := units[i].(status := status, lastUpdated := now)];
            UnitCount(after, t, s) + (if Matches(units[i], t, s) then 1 else 0)
            == UnitCount(units, t, s) + (if Matches(after[i], t, s) then 1 else 0)
    decreases |units|
  {
    var after := units[i := units[i].(status := status, lastUpdated := now)];
    var last := |units| - 1;
    if i == last {
      assert after[..last] == units[..last];
    } else {
      assert after[..last] == units[..last][i := units[i].(status := status, lastUpdated := now)];
      CountAfterStatusChange(units[..last], i, status, now, t, s);
    }
  }
}

=== FILE: values.dfy ===
/** Failure-compatible wrappers shared by every module of the model. */
module Wrappers {

  datatype Option<+T> = None | Some(value: T)

  datatype Result<+T, +E> = Ok(value: T) | Err(error: E)

  /** An HTTP error as raised through FastAPI's `HTTPException`. */
  datatype HttpError = HttpError(status: int, detail: string)
}

/**
  The dynamic values the services pass around as Python dicts and lists,
  documents of the store included, together with the few Python built-ins the
  services apply to them: truthiness, `str()`, `dict.get`, substring tests and
  `", ".join`.
 */
module Values {
  import opened Wrappers

  /** A JSON/BSON-like value. Floats are known only by their Python repr
      (coordinates are opaque to the model); an ObjectId by its hex string;
      a timestamp by its `str()` rendering. */
  datatype Value =
    | VNone
    | VBool(b: bool)
    | VInt(i: int)
    | VFloat(repr: string)
    | VStr(s: string)
    | VObjectId(hex: string)
    | VTime(iso: string)
    | VList(items: seq<Value>)
    | VDict(fields: map<string, Value>)

  /** A Python dict with string keys, such as a stored document or an analysis result. */
  type Doc = map<string, Value>

  /** `d.get(k, default)` */
  function Get(d: Doc, k: string, default: Value): Value
  {
    if k in d then d[k] else default
  }

  /** Python truthiness, as used by `if x:` and `if not x:`. */
  predicate Truthy(v: Value)
  {
    match v
    case VNone => false
    case VBool(b) => b
    case VInt(i) => i != 0
    case VFloat(r) => r != "0.0" && r != "-0.0"
    case VStr(s) => s != ""
    case VObjectId(_) => true
    case VTime(_) => true
    case VList(xs) => xs != []
    case VDict(m) => m != map[]
  }

  /** Decimal rendering of a natural number. */
  function NatToString(n: nat): (s: string)
    ensures |s| > 0
  {
    var digit := ['0', '1', '2', '3', '4', '5', '6', '7', '8', '9'][n % 10];
    if n < 10 then [digit] else NatToString(n / 10) + [digit]
  }

  /** `str(v)`; lists and dicts are rendered by a fixed placeholder. */
  function PyStr(v: Value): string
  {
    match v
    case VNone => "None"
    case VBool(b) => if b then "True" else "False"
    case VInt(i) => if i < 0 then "-" + NatToString(-i) else NatToString(i)
    case VFloat(r) => r
    case VStr(s) => s
    case VObjectId(h) => h
    case VTime(t) => t
    case VList(_) => "[...]"
    case VDict(_) => "{...}"
  }

  /** Python's `sub in s` on strings. */
  predicate Contains(s: string, sub: string)
    decreases |s|
  {
    if |sub| > |s| then false
    else s[..|sub|] == sub || (|s| > 0 && Contains(s[1..], sub))
  }

  /** `sub in s` holds exactly when `sub` occurs at some position of `s`. */
  lemma {:induction false} ContainsAt(s: string, sub: string, i: nat)
    requires i + |sub| <= |s| && s[i..i + |sub|] == sub
    ensures Contains(s, sub)
    decreases i
  {
    if i == 0 {
      assert s[..|sub|] == s[0..|sub|];
    } else {
      assert s[1..][i - 1..i - 1 + |sub|] == s[i..i + |sub|];
      ContainsAt(s[1..], sub, i - 1);
    }
  }

  /** `sep.join(parts)` */
  function Join(sep: string, parts: seq<string>): string
  {
    if |parts| == 0 then ""
    else if |parts| == 1 then parts[0]
    else parts[0] + sep + Join(sep, parts[1..])
  }

  /** `r` is `s` with some elements left out, the rest in their order. */
  ghost predicate Subsequence<T>(r: seq<T>, s: seq<T>)
    decreases |s|
  {
    |r| == 0 || (|s| > 0 &&
      ((r[|r| - 1] == s[|s| - 1] && Subsequence(r[..|r| - 1], s[..|s| - 1])) || Subsequence(r, s[..|s| - 1])))
  }

  /** No value occurs twice. */
  predicate NoDuplicates(xs: seq<Value>)
  {
    forall i, j :: 0 <= i < j < |xs| ==> xs[i] != xs[j]
  }

  /** Mongo's equality filter `{field: target}` on a document field: an array
      field matches when it holds the target as an element. */
  predicate FieldMatches(d: Doc, field: string, target: Value)
  {
    field in d && (d[field] == target || (d[field].VList? && target in d[field].items))
  }
}
